=== FILE: README.md ===
# Library reports: a verified model of the report queries

The library dashboard shows five reports over PostgreSQL views: most-borrowed books, overdue
loans, fines by month, member activity and inventory health. Each report is a page of rows
that match a search. It comes with the number of matches, the number of pages and a few
totals over the page. Page links sit under each report.

This project models in Dafny:

- the generic endpoint `GET /api/reports/<reportName>` (`src/app/lib/validation.ts`):
  - the whitelist of views;
  - the `page`/`limit` schema and the issues it reports;
  - the parameterised `SELECT` with its search or minimum-delay filter;
  - the `COUNT(*)` statement and the `LIMIT`/`OFFSET` statement;
  - the 200/404/400/500 answers;
- the five per-report query functions (`src/app/lib/queries/*.ts`): their two statements,
  the page they return, the page count and the page totals;
- the page links of `src/app/components/Pagination.tsx`.

Layout (one module per file):

| file | module | what it holds |
|---|---|---|
| `wrappers.dfy` | `Wrappers` | `Option`, `Result` |
| `js.dfy` | `Js` | JavaScript numbers as far as the core uses them: truthiness, comparison, `Number.isInteger`, `parseInt(s, 10)` and the decimal numeral it reads back |
| `url.dfy` | `Url` | `URLSearchParams` as a list of pairs: `get`, `has`, `set` |
| `paging.dfy` | `Paging` | `Math.ceil(n / limit)`, `(page - 1) * limit`, what `LIMIT`/`OFFSET` keep |
| `folds.dfy` | `Folds` | the `reduce` sums, and how page totals relate to the total over all rows |
| `sql.dfy` | `Sql` | statements as fragments plus bound values, PostgreSQL's binding rule, and a database over an abstract store |
| `validation.dfy` | `Validation` | the endpoint: method `Get` and the functions that specify it |
| `report_queries.dfy` | `ReportQueries` | the two statements of each per-report query |
| `most_borrowed_books.dfy`, `overdue_loans.dfy`, `fines_summary.dfy`, `member_activity.dfy`, `inventory_health.dfy` | `…Query` | one per-report query each |
| `pagination.dfy` | `Pagination` | the current page, the links and their URLs |

The database is a parameter, `Store`. Its `select` gives the ordered rows that a bound
query without `COUNT`/`LIMIT`/`OFFSET` yields, or a failure. `Sql.Run` interprets:

- the `COUNT(*)` wrapper, which counts the rows of the inner query;
- a trailing `LIMIT`/`OFFSET`, which keeps a window of the rows, and fails for a value
  that is negative or beyond `bigint` (2^63 - 1), as PostgreSQL does.

`Sql.Execute` refuses a statement whose placeholders are not exactly `$1 .. $n` for its `n`
values, as PostgreSQL does. The per-report query functions take the ordered matching rows
directly. Their SQL text is modelled separately in `ReportQueries`.

`Number(text)` is a parameter `number: string -> JsNumber`. This is the conversion that
`z.coerce.number()` and `Pagination` apply.

Zod's `.default(...)` replaces only an undefined input, while `searchParams.get` returns
`null` for a missing parameter. The model makes this a parameter, `AbsentPolicy`:

- `DefaultWhenAbsent`: the default is used;
- `CoerceAbsent`: `Number(null)` is 0 and fails `min(1)`.

`Validation.AbsentPaging` states both outcomes.

## Model

| member | source | states |
|---|---|---|
| Validation.NumberIssues | src/app/lib/validation.ts:7-8 | A field's issues are empty iff the value is accepted (integer, at least 1, at most the maximum). NaN gives only `invalid_type`. Otherwise each of not-integer, too-small and too-big is reported iff its check fails. |
| Validation.ParsePaging | src/app/lib/validation.ts:6-9 | The parse succeeds iff both page and limit are accepted; then page >= 1, 1 <= limit <= 100, and both equal the converted inputs. On failure the issue list is non-empty, a field appears iff it was rejected, and page issues come before limit issues. |
| Validation.AbsentPaging | src/app/lib/validation.ts:7-8 | Without page and limit: defaults 1 and 10 when the default applies, and two too-small issues when the missing values are converted. |
| Validation.LookupAllowedViews | src/app/lib/validation.ts:12-28 | Reading `ALLOWED_VIEWS[name]` through the object's own properties and then `Object.prototype` finds a truthy value for a configured view or an inherited name, and `undefined` for anything else. |
| Validation.ListedAsWritten | src/app/lib/validation.ts:12-28 | The truthiness test as written, defined by that property read, passes exactly the configured views and the names inherited from `Object.prototype`. |
| Validation.Listed | src/app/lib/validation.ts:12-28 | The corrected test passes exactly what the test as written passes, minus the inherited names. |
| Validation.InheritedNameReachesStore | src/app/lib/validation.ts:28-69 | With the test as written, `toString` passes; the endpoint builds `SELECT * FROM vw_toString` with no values, over a view that is none of the configured ones. |
| Validation.InheritedNamePassesWhitelist | src/app/lib/validation.ts:12-18 | The test as written passes every inherited `Object.prototype` name, e.g. `toString`, though none is a view; every real view passes both tests. |
| Validation.ListedIsReportName | src/app/lib/validation.ts:12-18 | The corrected whitelist admits exactly the five report names. |
| Validation.MinDays | src/app/lib/validation.ts:57-58 | A minimum delay is kept only when it parses and is at least 1. |
| Validation.MinDaysOfText | src/app/lib/validation.ts:57-58 | A non-empty value that does not start with a digit (after white space and a sign) adds no filter. |
| Validation.MinDaysOfDecimal | src/app/lib/validation.ts:56-61 | A positive decimal count, followed by any non-digit text, is taken as that count. Zero, a negative count and the empty value give no filter. |
| Validation.AtMostOneClause | src/app/lib/validation.ts:47-62 | The search applies only to most-borrowed-books when `search` is present. The delay filter applies only to overdue-loans. At most one clause and one value; none for the other reports. |
| Validation.SearchSharesOnePlaceholder | src/app/lib/validation.ts:47-53 | The search binds exactly `%term%`, and every searched column compares against the one placeholder `$1`. |
| Validation.MinDaysBindsInteger | src/app/lib/validation.ts:56-61 | The delay filter binds the parsed integer (at least 1), never the raw text, as `dias_atraso >= $1`. |
| Validation.WhereIffClauses | src/app/lib/validation.ts:64-66 | `WHERE` appears iff some clause was added; it is followed by the clauses joined with `AND`. |
| Validation.FilterParams | src/app/lib/validation.ts:47-62 | No value iff neither filter applies; the search binds `%term%` and the delay filter binds its parsed integer. |
| Validation.UnpagedQuery | src/app/lib/validation.ts:41-66 | The query starts with `SELECT * FROM vw_<name>` and has more than that iff some clause was added. |
| Validation.UnpagedQueryBindable | src/app/lib/validation.ts:41-66 | The placeholders of the built query are exactly `$1 .. $n` for its `n` values. |
| Validation.UnpagedQueryLits | src/app/lib/validation.ts:41-66 | For a whitelisted report the query text is made only of fixed words. No part of the query string (name, term or delay) enters it. |
| Validation.SqlIndependentOfSearchTerm | src/app/lib/validation.ts:47-53 | Two requests that differ only in `search` build the same SQL; they differ only in the bound `%term%`. |
| Validation.BuildQuery | src/app/lib/validation.ts:41-66 | The step-by-step construction (push value, push clause numbered by the values so far, join) yields exactly the specified query and values. |
| Validation.CountStatementAnswers | src/app/lib/validation.ts:69-71 | The `COUNT(*)` statement binds, uses only fixed words, and answers the number of rows the built query selects. |
| Validation.PagedStatementAnswers | src/app/lib/validation.ts:75-79 | `LIMIT $n+1 OFFSET $n+2` with `limit` and `offset` bound: the statement binds and returns the window `[offset, offset + limit)` of the selected rows, or fails when `limit` or `offset` is beyond `bigint`. |
| Validation.Get | src/app/lib/validation.ts:20-97 | A name not whitelisted gives 404 with no statement. Rejected paging gives 400 with the schema's issues and no statement. Every statement issued binds and contains only fixed words. Otherwise the endpoint answers as `Answered` states. It uses the corrected whitelist test (see Findings). |
| Validation.PageBeyondBigintFails | src/app/lib/validation.ts:38-95 | Page 10^19 and limit 10 are both accepted by the schema, and the endpoint answers 500 for them even when the store works. |
| Validation.Fetch | src/app/lib/validation.ts:38-95 | First the `COUNT(*)` of the built query is issued, then its page if the count succeeded. The answer is the rows `[(page-1)*limit, page*limit)` of the selection, its size and `ceil(size / limit)`. It is 500 when the store fails or when the offset is beyond `bigint`. |
| ReportQueries.DataStatement | src/app/lib/queries/mostBorrowedBooks.ts:25-35 | Each report's page statement binds its three values to `$1 $2 $3`. |
| ReportQueries.CountStatement | src/app/lib/queries/mostBorrowedBooks.ts:30-36 | Each report's count statement binds its one value to `$1`. |
| ReportQueries.StatementsShareThePredicate | src/app/lib/queries/memberActivity.ts:27-39 | The page and count statements share the same `WHERE` predicate and the same `%search%` value. The page statement adds `limit` and `(page-1)*limit`. |
| ReportQueries.DataStatementWindow | src/app/lib/queries/finesSummary.ts:25-38 | The page statement returns the window `[(page-1)*limit, page*limit)` of the ordered rows the predicate selects. It fails when the limit or the offset is beyond `bigint`. |
| ReportQueries.SqlIndependentOfSearch | src/app/lib/queries/mostBorrowedBooks.ts:25-36 | The SQL text of both statements does not depend on the search term or the page. The bound patterns differ iff the terms differ. |
| MostBorrowedBooksQuery.GetMostBorrowedBooks | src/app/lib/queries/mostBorrowedBooks.ts:18-43 | The books are the window of the matching rows for the page, at most `limit` of them. `totalItems` is the number of matches. `totalPages` is the page count, 0 iff nothing matches. |
| MostBorrowedBooksQuery.EveryBookOnAPage | src/app/lib/queries/mostBorrowedBooks.ts:23-40 | Matching book `k` is row `k % limit` of page `k / limit + 1`, which lies within the page count. A page is empty iff its number is past the page count. |
| OverdueLoansQuery.GetOverdueLoans | src/app/lib/queries/overdueLoans.ts:19-50 | The page is the window of the matches; it returns the match count and the page count. `estimatedFineTotal` is the sum of the page's fines (a missing fine counts 0), 0 for an empty page. |
| OverdueLoansQuery.LoansMostOverdueFirst | src/app/lib/queries/overdueLoans.ts:29 | When the matches are ordered by days overdue, most first, so is every page. |
| OverdueLoansQuery.FineTotalsOfAllPages | src/app/lib/queries/overdueLoans.ts:44-47 | There is one page total per page, and the page totals add up to the fines of all matching loans. |
| OverdueLoansQuery.FineTotalOfPage | src/app/lib/queries/overdueLoans.ts:44-47 | Entry `p-1` of those page totals is what page `p` reports. |
| FinesSummaryQuery.GetFinesSummary | src/app/lib/queries/finesSummary.ts:20-66 | The window, the counts, and the three sums (total, paid, pending) over the page; all are 0 for an empty page. |
| FinesSummaryQuery.LatestMonthFirst | src/app/lib/queries/finesSummary.ts:30 | When the matches are ordered by month, latest first, so is every page. |
| FinesSummaryQuery.PaidPlusPendingIsTotal | src/app/lib/queries/finesSummary.ts:45-56 | When each month's paid and pending amounts add up to its total, the page's paid and pending sums add up to its total sum. |
| FinesSummaryQuery.AmountsOfAllPages | src/app/lib/queries/finesSummary.ts:45-56 | There is one total per page, and the page totals of each amount add up to that amount over all matches. |
| FinesSummaryQuery.AmountsOfPage | src/app/lib/queries/finesSummary.ts:45-56 | Entry `p-1` of each list of page totals is what page `p` reports. |
| MemberActivityQuery.AverageRate | src/app/lib/queries/memberActivity.ts:49-55 | The average rate is 0 for no members; otherwise average × count = sum of the rates. |
| MemberActivityQuery.GetMemberActivity | src/app/lib/queries/memberActivity.ts:20-58 | The window, the counts, the page's loan sum, and its average overdue rate (0 for an empty page). |
| MemberActivityQuery.AverageWithinBounds | src/app/lib/queries/memberActivity.ts:49-55 | When every rate lies in `[lo, hi]` (with 0 in it), the average does too. |
| MemberActivityQuery.MostLoansFirst | src/app/lib/queries/memberActivity.ts:30 | When the matches are ordered by loans, most first, so is every page. |
| MemberActivityQuery.LoansOfAllPages | src/app/lib/queries/memberActivity.ts:45-48 | The page loan totals add up to the loans of all matching members. |
| MemberActivityQuery.LoansOfPage | src/app/lib/queries/memberActivity.ts:45-48 | Entry `p-1` of the page loan totals is what page `p` reports. |
| InventoryHealthQuery.GetInventoryHealth | src/app/lib/queries/invetoryHealth.ts:22-73 | The window, the counts, and the four copy sums over the page; all are 0 for an empty page. |
| InventoryHealthQuery.MostCopiesFirst | src/app/lib/queries/invetoryHealth.ts:32 | When the matches are ordered by copies, most first, so is every page. |
| InventoryHealthQuery.CopiesSplit | src/app/lib/queries/invetoryHealth.ts:47-62 | When every category's copies are available + loaned + lost, the same holds for the page sums. |
| InventoryHealthQuery.TotalsOfAllPages | src/app/lib/queries/invetoryHealth.ts:47-62 | The page totals of copies add up to the copies of all matching categories. |
| InventoryHealthQuery.TotalsOfPage | src/app/lib/queries/invetoryHealth.ts:47-62 | Entry `p-1` of the page totals is what page `p` reports. |
| Paging.CeilDiv | src/app/lib/validation.ts:72 | The page count is enough pages for all rows and leaves no empty last page. It is 0 iff there are no rows and never more than the row count. |
| Paging.PageCountUnique | src/app/lib/queries/overdueLoans.ts:42 | That property determines the page count uniquely. |
| Paging.Offset | src/app/lib/validation.ts:38 | The offset of page `page >= 1` is non-negative, and the next page starts `limit` rows later. |
| Paging.Slice | src/app/lib/validation.ts:75-79 | `LIMIT`/`OFFSET` keep the rows from `offset` on, at most `limit` of them, in order. |
| Paging.PageEmptyIffPastLast | src/app/lib/queries/finesSummary.ts:25-43 | A page is empty iff its number is past the page count. |
| Paging.RowOnItsPage | src/app/lib/queries/finesSummary.ts:25-43 | Row `k` is row `k % limit` of page `k / limit + 1`, which is within the page count. |
| Paging.SliceKeepsOrder | src/app/lib/queries/invetoryHealth.ts:32-33 | A page of an ordered result is ordered the same way. |
| Folds.PageTotalsAddUpInt | src/app/lib/queries/invetoryHealth.ts:47-50 | Integer page sums over all pages add up to the sum over all rows. |
| Folds.PageTotalsAddUpReal | src/app/lib/queries/overdueLoans.ts:44-47 | Decimal page sums over all pages add up to the sum over all rows. |
| Folds.SumRealBounds | src/app/lib/queries/memberActivity.ts:51-54 | A sum of values in `[lo, hi]` lies between `lo` and `hi` times the row count. |
| Folds.SumIntAdd | src/app/lib/queries/invetoryHealth.ts:47-62 | Summing a row-wise sum of two values gives the sum of the two sums. |
| Sql.Run | src/app/lib/validation.ts:69-79 | The database counts exactly a query wrapped in `COUNT(*)` whose inner query succeeds; a `LIMIT $ OFFSET $` query with integer values answers no more rows than the limit, and only when both values lie in `0 .. 2^63 - 1`, PostgreSQL's `bigint`. |
| Sql.ExecuteCountWrap | src/app/lib/validation.ts:69-70 | The `COUNT(*) FROM (...) as subquery` statement answers the number of rows the inner query selects. |
| Sql.ExecutePaged | src/app/lib/validation.ts:75-79 | The paged statement answers the window of the rows the inner query selects, and fails for a limit or offset beyond `bigint`. |
| Sql.PagedBindable | src/app/lib/validation.ts:75-76 | Appending `LIMIT $n+1 OFFSET $n+2` and pushing two values keeps a statement bindable. |
| Sql.IlikeAnyPlaceholders | src/app/lib/validation.ts:52 | The `ILIKE` disjunction over the columns uses only the one placeholder. |
| Sql.LikePattern | src/app/lib/validation.ts:51 | The pattern is the term wrapped in `%`. |
| Js.ParseInt | src/app/lib/validation.ts:57 | `parseInt(s, 10)` gives a number iff, after white space and one optional sign, the text starts with a digit. |
| Js.ParseIntOfDecimal | src/app/lib/validation.ts:57 | `parseInt(s, 10)` reads back the decimal numeral of any `n` (or `-n`) and ignores non-digit text after it. |
| Js.ParseIntSkipsWhiteSpace | src/app/lib/validation.ts:57 | Leading white space does not change what `parseInt` reads. |
| Js.ParseIntNaN | src/app/lib/validation.ts:57-58 | Text that does not start with a digit (after white space and a sign) is NaN. |
| Url.Set | src/app/components/Pagination.tsx:12-13 | After `set`, `get` of the name gives the new value; every other name reads as before. |
| Pagination.CurrentPage | src/app/components/Pagination.tsx:9 | The current page is always truthy. |
| Pagination.CurrentPageDefault | src/app/components/Pagination.tsx:9 | It is 1 when `page` is missing, 0 or not a number, and the converted value otherwise. |
| Pagination.PageNumbers | src/app/components/Pagination.tsx:17 | The page numbers are `1 .. totalPages`, strictly ascending. |
| Pagination.PreviousLink | src/app/components/Pagination.tsx:22-31 | At most one link; there is one iff the current page is past 1, labelled previous, not highlighted, leading to the page before. |
| Pagination.PageLinks | src/app/components/Pagination.tsx:32-45 | One link per page number, in order, leading to that page, highlighted iff it is the current page. |
| Pagination.NextLink | src/app/components/Pagination.tsx:46-55 | At most one link; there is one iff the current page is before the last, labelled next, not highlighted, leading to the page after. |
| Pagination.Links | src/app/components/Pagination.tsx:19-58 | One link per page plus the previous and next links when shown; only numbered links are highlighted. |
| Pagination.PreviousLinkIff | src/app/components/Pagination.tsx:22-31 | The previous link is shown iff the current page is past 1; it comes first and leads to the page before. |
| Pagination.NextLinkIff | src/app/components/Pagination.tsx:46-55 | The next link is shown iff the current page is before the last; it comes last and leads to the page after. |
| Pagination.NumberedLinks | src/app/components/Pagination.tsx:32-45 | One link per page, in order. A link is highlighted iff it is the current page, so at most one is. |
| Pagination.NoPages | src/app/components/Pagination.tsx:17-55 | With no pages and a non-negative current page there is no next link and no numbered link. |
| Pagination.NextWithNegativePage | src/app/components/Pagination.tsx:9-46 | With page `-3` in the URL and no pages, a next link is still shown. |
| Pagination.CreatePageUrl | src/app/components/Pagination.tsx:11-15 | A link keeps the path and every other query parameter and sets `page` to the page's text. |
| Pagination.LinkLeadsToItsPage | src/app/components/Pagination.tsx:9-15 | Following the link of page `k` and reading the current page back gives `k`. |

## Left out

- The database connection (`src/app/lib/db.ts`), `async`/`await` and `console.error` are not modelled. The store is a function over the bound statement.
- Matching (`ILIKE`) and ordering (`ORDER BY ... DESC`) are the store's business. The ordering lemmas assume the store returns rows in that order.
- SQL whitespace, line breaks and the trailing `;` of the per-report queries are not kept.
- `parseInt(totalResult.rows[0].count, 10)` and the per-report count query: the count is taken to be the number of rows the inner query selects. The driver's string encoding of `bigint` is not modelled.
- `Validation.Fetch` and the per-report functions derive the rows and the count from one `select`. The model therefore has no state in which the count and the page disagree, e.g. rows inserted between the two statements.
- `NextResponse.json` and the JSON encoding, Zod's issue messages and paths, and the `ZodError` wrapper are not modelled. An issue is its field and the check that failed; where Zod reports a failed `.int()` under the code `invalid_type`, the model names the check, `NotInteger`.
- `Number(text)` is a parameter, not a model of JavaScript's string-to-number grammar.
- IEEE-754 doubles are modelled as exact reals or integers. `parseFloat` of the decimal columns is the decimal value itself, and rounding in sums and in the average is not modelled.
- `parseInt(x || '0')` on integer columns takes the integer value; a missing value is None and counts 0.
- `Number.prototype.toString`, the `URLSearchParams` serialisation and the link's `href` text are not modelled. `Pagination.CreatePageUrl` takes the page's text and returns the path and the parameter list.
- The rendered markup and CSS classes of `Pagination` are not modelled, except that a link is highlighted. The search bar and the report pages are not part of this model.
- The view names are kept as written, including `vw_most-borrowed-books` with its hyphens, which PostgreSQL would reject as an unquoted identifier. The store is abstract, so the model does not decide this.
- Validation.Get: `AbsentPolicy` is a parameter; the model does not choose between Zod versions.
- MostBorrowedBooksQuery.GetMostBorrowedBooks: takes the matching rows and always returns a page; a failing query, such as an offset beyond PostgreSQL's `bigint`, which makes the source's call throw, is not modelled. `ReportQueries.DataStatementWindow` states that failure for its statements.
- OverdueLoansQuery.GetOverdueLoans: takes the matching rows and always returns a page; a failing query, such as an offset beyond `bigint`, is not modelled (see `ReportQueries.DataStatementWindow`).
- FinesSummaryQuery.GetFinesSummary: takes the matching rows and always returns a page; a failing query, such as an offset beyond `bigint`, is not modelled (see `ReportQueries.DataStatementWindow`).
- MemberActivityQuery.GetMemberActivity: takes the matching rows and always returns a page; a failing query, such as an offset beyond `bigint`, is not modelled (see `ReportQueries.DataStatementWindow`).
- InventoryHealthQuery.GetInventoryHealth: takes the matching rows and always returns a page; a failing query, such as an offset beyond `bigint`, is not modelled (see `ReportQueries.DataStatementWindow`).
- Validation.Get: uses the corrected whitelist test `Listed` rather than line 28 as written, which passes inherited `Object.prototype` names; the as-written test is `Validation.ListedAsWritten`, and `Validation.InheritedNamePassesWhitelist` states what it lets through.
- MostBorrowedBooksQuery.EveryBookOnAPage: assumes every page request sees the matches in one fixed order. The query has no ORDER BY, so PostgreSQL guarantees no such order, and a book may be skipped or repeated across pages.
- OverdueLoansQuery.FineTotalsOfAllPages: assumes one fixed order of the matches for all page requests. `ORDER BY dias_atraso DESC` does not break ties, so the source guarantees this only where the days are distinct.
- FinesSummaryQuery.AmountsOfAllPages: assumes one fixed order of the matches for all page requests, which the month ordering guarantees only where the months are distinct.
- MemberActivityQuery.LoansOfAllPages: assumes one fixed order of the matches for all page requests. `ORDER BY total_loans DESC` does not break ties, so the source guarantees this only where the totals are distinct.
- InventoryHealthQuery.TotalsOfAllPages: assumes one fixed order of the matches for all page requests. `ORDER BY total_copies DESC` does not break ties, so the source guarantees this only where the totals are distinct.
- The reports page validates `page` as a positive integer before rendering. `Pagination.NextWithNegativePage` therefore describes a URL that page never renders with; it is not listed as a defect.

## Findings

| source | as written | input that shows it | evidently intended | confidence | as-written member | corrected member |
|---|---|---|---|---|---|---|
| src/app/lib/validation.ts:28 | `!ALLOWED_VIEWS[reportName]` reads inherited properties of the object literal, so names such as `toString` and `constructor` pass the whitelist | `GET /api/reports/toString?page=1&limit=10` passes the whitelist and builds `SELECT * FROM vw_toString`, a view that is not configured, for the database instead of answering 404 | only the five configured report names pass, as an own-property check does | high; not executed | Validation.InheritedNamePassesWhitelist | Validation.ListedIsReportName |

=== FILE: fines_summary.dfy ===
/**
 * `getFinesSummary`: one page of the monthly fine summaries whose month matches the search,
 * latest month first, with the number of matches and of pages and three amount totals of
 * the page: all fines, paid fines and pending fines.
 */
module FinesSummaryQuery {
  import opened Wrappers
  import opened Paging
  import opened Folds

  /** A row of the view. The amounts are decimal columns; a missing value is None. */
  datatype FineSummary = FineSummary(
    summaryMonth: string, totalFinesAmount: Option<real>, paidFinesAmount: Option<real>,
    pendingFinesAmount: Option<real>, numberOfFines: int)

  datatype FinesSummaryResult = FinesSummaryResult(
    fines: seq<FineSummary>, totalItems: nat, totalPages: nat,
    totalFinesAmount: real, totalPaidAmount: real, totalPendingAmount: real)

  /** `parseFloat(x || '0')`: a missing amount counts as 0. */
  function Amount(x: Option<real>): real
  {
    if x.Some? then x.value else 0.0
  }

  function Total(f: FineSummary): real { Amount(f.totalFinesAmount) }
  function Paid(f: FineSummary): real { Amount(f.paidFinesAmount) }
  function Pending(f: FineSummary): real { Amount(f.pendingFinesAmount) }

  function GetFinesSummary(page: int, limit: int, matching: seq<FineSummary>): (r: FinesSummaryResult)
    requires page >= 1 && limit >= 1
    ensures IsWindow(r.fines, matching, Offset(page, limit), limit) && |r.fines| <= limit
    ensures r.totalItems == |matching|
    ensures IsPageCount(r.totalPages, r.totalItems, limit)
    ensures r.totalFinesAmount == SumReal(r.fines, Total)
    ensures r.totalPaidAmount == SumReal(r.fines, Paid)
    ensures r.totalPendingAmount == SumReal(r.fines, Pending)
    ensures r.fines == [] ==> r.totalFinesAmount == r.totalPaidAmount == r.totalPendingAmount == 0.0
  {
    var offset := Offset(page, limit);
    var fines := Slice(matching, offset, limit);
    var totalItems := |matching|;
    FinesSummaryResult(fines, totalItems, CeilDiv(totalItems, limit),
                       SumReal(fines, Total), SumReal(fines, Paid), SumReal(fines, Pending))
  }

  /** When the matching months are in the database's `summary_month DESC` order, given
      as `atLeast`, so is every page. */
  lemma LatestMonthFirst(page: int, limit: int, matching: seq<FineSummary>, atLeast: (string, string) -> bool)
    requires page >= 1 && limit >= 1
    requires forall i, j :: 0 <= i < j < |matching| ==> atLeast(matching[i].summaryMonth, matching[j].summaryMonth)
    ensures var fines := GetFinesSummary(page, limit, matching).fines;
            forall i, j :: 0 <= i < j < |fines| ==> atLeast(fines[i].summaryMonth, fines[j].summaryMonth)
  {
    SliceKeepsOrder(matching, Offset(page, limit), limit,
                    (a: FineSummary, b: FineSummary) => atLeast(a.summaryMonth, b.summaryMonth));
  }

  /** When every month's paid and pending amounts add up to its total, so do the page's. */
  lemma PaidPlusPendingIsTotal(page: int, limit: int, matching: seq<FineSummary>)
    requires page >= 1 && limit >= 1
    requires forall i :: 0 <= i < |matching| ==> Total(matching[i]) == Paid(matching[i]) + Pending(matching[i])
    ensures var r := GetFinesSummary(page, limit, matching);
            r.totalFinesAmount == r.totalPaidAmount + r.totalPendingAmount
  {
    var fines := GetFinesSummary(page, limit, matching).fines;
    SumRealAdd(fines, Paid, Pending, Total);
  }

  /** Each amount covers the returned page only: the page totals over `1 .. totalPages`
      add up to the amounts of all matching months, when every page request sees the matches
      in the same order `matching`. */
  lemma AmountsOfAllPages(limit: int, matching: seq<FineSummary>)
    requires limit >= 1
    ensures |PageTotalsReal(matching, limit, Total)| == GetFinesSummary(1, limit, matching).totalPages
    ensures SumReal(PageTotalsReal(matching, limit, Total), IdReal) == SumReal(matching, Total)
    ensures SumReal(PageTotalsReal(matching, limit, Paid), IdReal) == SumReal(matching, Paid)
    ensures SumReal(PageTotalsReal(matching, limit, Pending), IdReal) == SumReal(matching, Pending)
  {
    PageTotalsAddUpReal(matching, limit, Total);
    PageTotalsAddUpReal(matching, limit, Paid);
    PageTotalsAddUpReal(matching, limit, Pending);
  }

  /** Entry `p - 1` of each list of page totals is the amount page `p` reports. */
  lemma AmountsOfPage(limit: int, matching: seq<FineSummary>, p: int)
    requires limit >= 1 && 1 <= p <= CeilDiv(|matching|, limit)
    ensures var r := GetFinesSummary(p, limit, matching);
            && PageTotalsReal(matching, limit, Total)[p - 1] == r.totalFinesAmount
            && PageTotalsReal(matching, limit, Paid)[p - 1] == r.totalPaidAmount
            && PageTotalsReal(matching, limit, Pending)[p - 1] == r.totalPendingAmount
  {
    assert PageTotalsReal(matching, limit, Total)[p - 1] == PageTotalReal(matching, limit, Total, p);
    assert PageTotalsReal(matching, limit, Paid)[p - 1] == PageTotalReal(matching, limit, Paid, p);
    assert PageTotalsReal(matching, limit, Pending)[p - 1] == PageTotalReal(matching, limit, Pending, p);
  }
}

=== FILE: folds.dfy ===
/**
 * The page aggregates of the per-report queries are `reduce` folds over the rows of the
 * returned page. This module defines the two folds (over integers and over decimal amounts)
 * and relates a page's total to the total over every matching row.
 */
module Folds {
  import opened Paging

  /** `rows.reduce((sum, row) => sum + f(row), 0)` with integer values. */
  function SumInt<R>(rows: seq<R>, f: R -> int): int
  {
    if rows == [] then 0 else SumInt(rows[..|rows| - 1], f) + f(rows[|rows| - 1])
  }

  /** `rows.reduce((sum, row) => sum + f(row), 0)` with decimal values. */
  function SumReal<R>(rows: seq<R>, f: R -> real): real
  {
    if rows == [] then 0.0 else SumReal(rows[..|rows| - 1], f) + f(rows[|rows| - 1])
  }

  /** Folding a concatenation folds each part. */
  lemma {:induction false} SumIntConcat<R>(a: seq<R>, b: seq<R>, f: R -> int)
    ensures SumInt(a + b, f) == SumInt(a, f) + SumInt(b, f)
  {
    if b == [] {
      assert a + b == a;
    } else {
      assert (a + b)[..|a + b| - 1] == a + b[..|b| - 1];
      SumIntConcat(a, b[..|b| - 1], f);
    }
  }

  lemma SumIntSplit<R>(rows: seq<R>, k: nat, f: R -> int)
    requires k <= |rows|
    ensures SumInt(rows, f) == SumInt(rows[..k], f) + SumInt(rows[k..], f)
  {
    assert rows == rows[..k] + rows[k..];
    SumIntConcat(rows[..k], rows[k..], f);
  }

  lemma {:induction false} SumRealConcat<R>(a: seq<R>, b: seq<R>, f: R -> real)
    ensures SumReal(a + b, f) == SumReal(a, f) + SumReal(b, f)
  {
    if b == [] {
      assert a + b == a;
    } else {
      assert (a + b)[..|a + b| - 1] == a + b[..|b| - 1];
      SumRealConcat(a, b[..|b| - 1], f);
    }
  }

  lemma SumRealSplit<R>(rows: seq<R>, k: nat, f: R -> real)
    requires k <= |rows|
    ensures SumReal(rows, f) == SumReal(rows[..k], f) + SumReal(rows[k..], f)
  {
    assert rows == rows[..k] + rows[k..];
    SumRealConcat(rows[..k], rows[k..], f);
  }

  /** When every value lies in `[lo, hi]`, the sum lies between `lo` and `hi` times the
      number of rows. */
  lemma {:induction false} SumRealBounds<R>(rows: seq<R>, f: R -> real, lo: real, hi: real)
    requires forall i :: 0 <= i < |rows| ==> lo <= f(rows[i]) <= hi
    ensures lo * |rows| as real <= SumReal(rows, f) <= hi * |rows| as real
  {
    if rows != [] {
      var init := rows[..|rows| - 1];
      assert forall i :: 0 <= i < |init| ==> init[i] == rows[i];
      SumRealBounds(init, f, lo, hi);
      assert |rows| as real == |init| as real + 1.0;
    }
  }

  /** Folding a row-wise sum of two values gives the sum of the two folds. */
  lemma {:induction false} SumIntAdd<R>(rows: seq<R>, f: R -> int, g: R -> int, h: R -> int)
    requires forall i :: 0 <= i < |rows| ==> h(rows[i]) == f(rows[i]) + g(rows[i])
    ensures SumInt(rows, h) == SumInt(rows, f) + SumInt(rows, g)
  {
    if rows != [] {
      var init := rows[..|rows| - 1];
      assert forall i :: 0 <= i < |init| ==> init[i] == rows[i];
      SumIntAdd(init, f, g, h);
    }
  }

  lemma {:induction false} SumRealAdd<R>(rows: seq<R>, f: R -> real, g: R -> real, h: R -> real)
    requires forall i :: 0 <= i < |rows| ==> h(rows[i]) == f(rows[i]) + g(rows[i])
    ensures SumReal(rows, h) == SumReal(rows, f) + SumReal(rows, g)
  {
    if rows != [] {
      var init := rows[..|rows| - 1];
      assert forall i :: 0 <= i < |init| ==> init[i] == rows[i];
      SumRealAdd(init, f, g, h);
    }
  }

  /** Skipping the first `k` rows moves every window `k` rows back. */
  lemma SliceShift<R>(rows: seq<R>, k: nat, offset: nat, limit: nat)
    requires k <= |rows|
    ensures Slice(rows, k + offset, limit) == Slice(rows[k..], offset, limit)
  {
    var a := Slice(rows, k + offset, limit);
    var b := Slice(rows[k..], offset, limit);
    assert |a| == |b|;
    forall i | 0 <= i < |a| ensures a[i] == b[i] {
      assert a[i] == rows[k + offset + i];
      assert b[i] == rows[k..][offset + i];
    }
  }

  /** The page count of the rows after the first page. */
  lemma CeilDivAfterFirstPage(n: nat, limit: nat)
    requires limit >= 1 && n > limit
    ensures CeilDiv(n, limit) == CeilDiv(n - limit, limit) + 1
  {
    var t := CeilDiv(n - limit, limit);
    assert (t + 1) * limit == t * limit + limit;
    PageCountUnique(t + 1, n, limit);
  }

  /** The integer total of the rows on page `page`. */
  function PageTotalInt<R(==)>(rows: seq<R>, limit: nat, f: R -> int, page: nat): int
    requires limit >= 1 && page >= 1
  {
    SumInt(Slice(rows, Offset(page, limit), limit), f)
  }

  /** The decimal total of the rows on page `page`. */
  function PageTotalReal<R(==)>(rows: seq<R>, limit: nat, f: R -> real, page: nat): real
    requires limit >= 1 && page >= 1
  {
    SumReal(Slice(rows, Offset(page, limit), limit), f)
  }

  /** The integer total of each page 1 .. totalPages, in page order. */
  function PageTotalsInt<R(==)>(rows: seq<R>, limit: nat, f: R -> int): (totals: seq<int>)
    requires limit >= 1
    ensures |totals| == CeilDiv(|rows|, limit)
  {
    seq(CeilDiv(|rows|, limit), p requires 0 <= p => PageTotalInt(rows, limit, f, p + 1))
  }

  /** The decimal total of each page 1 .. totalPages, in page order. */
  function PageTotalsReal<R(==)>(rows: seq<R>, limit: nat, f: R -> real): (totals: seq<real>)
    requires limit >= 1
    ensures |totals| == CeilDiv(|rows|, limit)
  {
    seq(CeilDiv(|rows|, limit), p requires 0 <= p => PageTotalReal(rows, limit, f, p + 1))
  }

  function Id(x: int): int { x }

  function IdReal(x: real): real { x }

  /** The totals of a result longer than one page: the first page's, then those of the rest. */
  lemma FirstPageThenRestInt<R>(rows: seq<R>, limit: nat, f: R -> int)
    requires limit >= 1 && |rows| > limit
    ensures PageTotalsInt(rows, limit, f)
            == [SumInt(rows[..limit], f)] + PageTotalsInt(rows[limit..], limit, f)
  {
    var totals := PageTotalsInt(rows, limit, f);
    var later := PageTotalsInt(rows[limit..], limit, f);
    CeilDivAfterFirstPage(|rows|, limit);
    FirstPage(rows, limit);
    assert totals[0] == SumInt(rows[..limit], f);
    forall p | 0 <= p < |later| ensures totals[p + 1] == later[p] {
      LaterPage(rows, limit, p);
    }
  }

  lemma FirstPage<R>(rows: seq<R>, limit: nat)
    requires limit >= 1 && |rows| > limit
    ensures Slice(rows, Offset(1, limit), limit) == rows[..limit]
  {
  }

  lemma LaterPage<R>(rows: seq<R>, limit: nat, p: nat)
    requires limit >= 1 && |rows| > limit
    ensures Slice(rows, Offset(p + 2, limit), limit) == Slice(rows[limit..], Offset(p + 1, limit), limit)
  {
    OffsetNext(p + 1, limit);
    SliceShift(rows, limit, Offset(p + 1, limit), limit);
  }

  lemma OffsetNext(page: nat, limit: nat)
    requires page >= 1
    ensures Offset(page + 1, limit) == limit + Offset(page, limit)
  {
  }

  lemma FirstPageThenRestReal<R>(rows: seq<R>, limit: nat, f: R -> real)
    requires limit >= 1 && |rows| > limit
    ensures PageTotalsReal(rows, limit, f)
            == [SumReal(rows[..limit], f)] + PageTotalsReal(rows[limit..], limit, f)
  {
    var totals := PageTotalsReal(rows, limit, f);
    var later := PageTotalsReal(rows[limit..], limit, f);
    CeilDivAfterFirstPage(|rows|, limit);
    FirstPage(rows, limit);
    assert totals[0] == SumReal(rows[..limit], f);
    forall p | 0 <= p < |later| ensures totals[p + 1] == later[p] {
      LaterPage(rows, limit, p);
    }
  }

  lemma SumIntCons(x: int, t: seq<int>)
    ensures SumInt([x] + t, Id) == x + SumInt(t, Id)
  {
    SumIntConcat([x], t, Id);
    assert [x][..0] == [];
  }

  lemma SumRealCons(x: real, t: seq<real>)
    ensures SumReal([x] + t, IdReal) == x + SumReal(t, IdReal)
  {
    SumRealConcat([x], t, IdReal);
    assert [x][..0] == [];
  }

  /** A page total covers only its page: the totals of all pages add up to the total over
      every matching row, so one page's total is the full total only when there is one page. */
  lemma {:induction false} PageTotalsAddUpInt<R>(rows: seq<R>, limit: nat, f: R -> int)
    requires limit >= 1
    ensures SumInt(PageTotalsInt(rows, limit, f), Id) == SumInt(rows, f)
    decreases |rows|
  {
    if rows == [] {
    } else if |rows| <= limit {
      OnePageTotalsInt(rows, limit, f);
      SumIntCons(SumInt(rows, f), []);
      assert [SumInt(rows, f)] + [] == [SumInt(rows, f)];
    } else {
      PageTotalsAddUpInt(rows[limit..], limit, f);
      FirstPageAddsUpInt(rows, limit, f);
      SumIntSplit(rows, limit, f);
    }
  }

  /** The totals of all pages are the first page's total plus the totals of the rest. */
  lemma FirstPageAddsUpInt<R>(rows: seq<R>, limit: nat, f: R -> int)
    requires limit >= 1 && |rows| > limit
    ensures SumInt(PageTotalsInt(rows, limit, f), Id)
            == SumInt(rows[..limit], f) + SumInt(PageTotalsInt(rows[limit..], limit, f), Id)
  {
    FirstPageThenRestInt(rows, limit, f);
    SumIntCons(SumInt(rows[..limit], f), PageTotalsInt(rows[limit..], limit, f));
  }

  lemma OnePageTotalsInt<R>(rows: seq<R>, limit: nat, f: R -> int)
    requires limit >= 1 && 0 < |rows| <= limit
    ensures PageTotalsInt(rows, limit, f) == [SumInt(rows, f)]
  {
    PageCountUnique(1, |rows|, limit);
    var totals := PageTotalsInt(rows, limit, f);
    assert |totals| == 1;
    SinglePageIsEverything(rows, limit);
    assert totals[0] == PageTotalInt(rows, limit, f, 1);
  }


  lemma {:induction false} PageTotalsAddUpReal<R>(rows: seq<R>, limit: nat, f: R -> real)
    requires limit >= 1
    ensures SumReal(PageTotalsReal(rows, limit, f), IdReal) == SumReal(rows, f)
    decreases |rows|
  {
    if rows == [] {
    } else if |rows| <= limit {
      OnePageTotalsReal(rows, limit, f);
      SumRealCons(SumReal(rows, f), []);
      assert [SumReal(rows, f)] + [] == [SumReal(rows, f)];
    } else {
      PageTotalsAddUpReal(rows[limit..], limit, f);
      FirstPageAddsUpReal(rows, limit, f);
      SumRealSplit(rows, limit, f);
    }
  }

  /** The totals of all pages are the first page's total plus the totals of the rest. */
  lemma FirstPageAddsUpReal<R>(rows: seq<R>, limit: nat, f: R -> real)
    requires limit >= 1 && |rows| > limit
    ensures SumReal(PageTotalsReal(rows, limit, f), IdReal)
            == SumReal(rows[..limit], f) + SumReal(PageTotalsReal(rows[limit..], limit, f), IdReal)
  {
    FirstPageThenRestReal(rows, limit, f);
    SumRealCons(SumReal(rows[..limit], f), PageTotalsReal(rows[limit..], limit, f));
  }

  lemma OnePageTotalsReal<R>(rows: seq<R>, limit: nat, f: R -> real)
    requires limit >= 1 && 0 < |rows| <= limit
    ensures PageTotalsReal(rows, limit, f) == [SumReal(rows, f)]
  {
    PageCountUnique(1, |rows|, limit);
    var totals := PageTotalsReal(rows, limit, f);
    assert |totals| == 1;
    SinglePageIsEverything(rows, limit);
    assert totals[0] == PageTotalReal(rows, limit, f, 1);
  }

}

=== FILE: inventory_health.dfy ===
/**
 * `getInventoryHealth`: one page of the book categories that match the search, most copies
 * first, with the number of matches and of pages and four copy totals of the page.
 */
module InventoryHealthQuery {
  import opened Wrappers
  import opened Paging
  import opened Folds

  /** A row of the view. The copy counts are integer columns; a missing value is None. */
  datatype InventoryItem = InventoryItem(
    category: string, totalCopies: Option<int>, availableCopies: Option<int>,
    loanedCopies: Option<int>, lostCopies: Option<int>, availabilityPercentage: string)

  datatype InventoryHealthResult = InventoryHealthResult(
    inventory: seq<InventoryItem>, totalItems: nat, totalPages: nat,
    totalCopies: int, totalAvailable: int, totalLoaned: int, totalLost: int)

  /** `parseInt(x || '0')`: a missing count counts as 0. */
  function Count(x: Option<int>): int
  {
    if x.Some? then x.value else 0
  }

  function Copies(i: InventoryItem): int { Count(i.totalCopies) }
  function Available(i: InventoryItem): int { Count(i.availableCopies) }
  function Loaned(i: InventoryItem): int { Count(i.loanedCopies) }
  function Lost(i: InventoryItem): int { Count(i.lostCopies) }

  function GetInventoryHealth(page: int, limit: int, matching: seq<InventoryItem>): (r: InventoryHealthResult)
    requires page >= 1 && limit >= 1
    ensures IsWindow(r.inventory, matching, Offset(page, limit), limit) && |r.inventory| <= limit
    ensures r.totalItems == |matching|
    ensures IsPageCount(r.totalPages, r.totalItems, limit)
    ensures r.totalCopies == SumInt(r.inventory, Copies)
    ensures r.totalAvailable == SumInt(r.inventory, Available)
    ensures r.totalLoaned == SumInt(r.inventory, Loaned)
    ensures r.totalLost == SumInt(r.inventory, Lost)
    ensures r.inventory == [] ==> r.totalCopies == r.totalAvailable == r.totalLoaned == r.totalLost == 0
  {
    var offset := Offset(page, limit);
    var inventory := Slice(matching, offset, limit);
    var totalItems := |matching|;
    InventoryHealthResult(inventory, totalItems, CeilDiv(totalItems, limit),
                          SumInt(inventory, Copies), SumInt(inventory, Available),
                          SumInt(inventory, Loaned), SumInt(inventory, Lost))
  }

  /** When the matching categories are ordered by copies, most first, so is every page. */
  lemma MostCopiesFirst(page: int, limit: int, matching: seq<InventoryItem>)
    requires page >= 1 && limit >= 1
    requires forall i, j :: 0 <= i < j < |matching| ==> Copies(matching[i]) >= Copies(matching[j])
    ensures var items := GetInventoryHealth(page, limit, matching).inventory;
            forall i, j :: 0 <= i < j < |items| ==> Copies(items[i]) >= Copies(items[j])
  {
    SliceKeepsOrder(matching, Offset(page, limit), limit, (a: InventoryItem, b: InventoryItem) => Copies(a) >= Copies(b));
  }

  function AvailableOrLoaned(i: InventoryItem): int { Available(i) + Loaned(i) }

  /** When every category's copies are available, loaned or lost, the page's totals split
      the same way. */
  lemma CopiesSplit(page: int, limit: int, matching: seq<InventoryItem>)
    requires page >= 1 && limit >= 1
    requires forall i :: 0 <= i < |matching| ==>
               Copies(matching[i]) == Available(matching[i]) + Loaned(matching[i]) + Lost(matching[i])
    ensures var r := GetInventoryHealth(page, limit, matching);
            r.totalCopies == r.totalAvailable + r.totalLoaned + r.totalLost
  {
    var items := GetInventoryHealth(page, limit, matching).inventory;
    SumIntAdd(items, Available, Loaned, AvailableOrLoaned);
    SumIntAdd(items, AvailableOrLoaned, Lost, Copies);
  }

  /** Each total covers the returned page only: the page totals over `1 .. totalPages`
      add up to the totals of all matching categories, when every page request sees the
      matches in the same order `matching`. */
  lemma TotalsOfAllPages(limit: int, matching: seq<InventoryItem>)
    requires limit >= 1
    ensures |PageTotalsInt(matching, limit, Copies)| == GetInventoryHealth(1, limit, matching).totalPages
    ensures SumInt(PageTotalsInt(matching, limit, Copies), Id) == SumInt(matching, Copies)
    ensures SumInt(PageTotalsInt(matching, limit, Available), Id) == SumInt(matching, Available)
    ensures SumInt(PageTotalsInt(matching, limit, Loaned), Id) == SumInt(matching, Loaned)
    ensures SumInt(PageTotalsInt(matching, limit, Lost), Id) == SumInt(matching, Lost)
  {
    PageTotalsAddUpInt(matching, limit, Copies);
    PageTotalsAddUpInt(matching, limit, Available);
    PageTotalsAddUpInt(matching, limit, Loaned);
    PageTotalsAddUpInt(matching, limit, Lost);
  }

  /** Entry `p - 1` of each list of page totals is the total page `p` reports. */
  lemma TotalsOfPage(limit: int, matching: seq<InventoryItem>, p: int)
    requires limit >= 1 && 1 <= p <= CeilDiv(|matching|, limit)
    ensures var r := GetInventoryHealth(p, limit, matching);
            && PageTotalsInt(matching, limit, Copies)[p - 1] == r.totalCopies
            && PageTotalsInt(matching, limit, Available)[p - 1] == r.totalAvailable
            && PageTotalsInt(matching, limit, Loaned)[p - 1] == r.totalLoaned
            && PageTotalsInt(matching, limit, Lost)[p - 1] == r.totalLost
  {
    assert PageTotalsInt(matching, limit, Copies)[p - 1] == PageTotalInt(matching, limit, Copies, p);
    assert PageTotalsInt(matching, limit, Available)[p - 1] == PageTotalInt(matching, limit, Available, p);
    assert PageTotalsInt(matching, limit, Loaned)[p - 1] == PageTotalInt(matching, limit, Loaned, p);
    assert PageTotalsInt(matching, limit, Lost)[p - 1] == PageTotalInt(matching, limit, Lost, p);
  }
}

=== FILE: js.dfy ===
/**
 * The parts of JavaScript's number semantics the dashboard relies on: number values,
 * truthiness (`x || 1`), `Number.isInteger`, comparisons with integers, and
 * `parseInt(s, 10)`.
 */
module Js {
  import opened Wrappers

  /** A JavaScript number. Finite values are kept exact: IEEE-754 rounding is not modelled. */
  datatype JsNumber = NaN | PosInf | NegInf | Finite(value: real)

  /** `Number(v)` for `v` the result of `URLSearchParams.get`: `null` converts to 0, and
      `number` is the conversion of a present string. */
  function FromParam(v: Option<string>, number: string -> JsNumber): JsNumber
  {
    if v.None? then Finite(0.0) else number(v.value)
  }

  /** A number is falsy exactly when it is 0 (either sign) or NaN. */
  predicate Truthy(n: JsNumber)
  {
    !n.NaN? && n != Finite(0.0)
  }

  /** `Number.isInteger(n)`: finite and without a fractional part. */
  predicate IsInteger(n: JsNumber)
  {
    n.Finite? && n.value.Floor as real == n.value
  }

  /** `n < k` for an integer `k`. */
  predicate Less(n: JsNumber, k: int)
  {
    match n
    case NaN => false
    case PosInf => false
    case NegInf => true
    case Finite(v) => v < k as real
  }

  /** `n > k` for an integer `k`. */
  predicate Greater(n: JsNumber, k: int)
  {
    match n
    case NaN => false
    case PosInf => true
    case NegInf => false
    case Finite(v) => v > k as real
  }

  /** `n + k` for an integer `k`; infinities and NaN absorb it. */
  function Add(n: JsNumber, k: int): (r: JsNumber)
    ensures r.Finite? <==> n.Finite?
    ensures n.Finite? ==> r.value - n.value == k as real
    ensures !n.Finite? ==> r == n
  {
    match n
    case Finite(v) => Finite(v + k as real)
    case _ => n
  }

  /** The characters `parseInt` skips before the numeral: WhiteSpace (tab, vertical tab,
      form feed, ZWNBSP and every Unicode "Zs" space) and LineTerminator (LF, CR, LS, PS),
      as sections 12.2 and 12.3 of ECMA-262 list them. */
  predicate IsWhiteSpace(c: char)
  {
    || '\t' <= c <= '\r'
    || c == ' ' || c == '\U{00A0}' || c == '\U{1680}'
    || '\U{2000}' <= c <= '\U{200A}'
    || c == '\U{2028}' || c == '\U{2029}' || c == '\U{202F}' || c == '\U{205F}'
    || c == '\U{3000}' || c == '\U{FEFF}'
  }

  predicate IsDigit(c: char)
  {
    '0' <= c <= '9'
  }

  predicate AllDigits(s: string)
  {
    forall i :: 0 <= i < |s| ==> IsDigit(s[i])
  }

  function DigitValue(c: char): (d: nat)
    requires IsDigit(c)
    ensures d < 10
  {
    c as int - '0' as int
  }

  function DigitChar(d: nat): (c: char)
    requires d < 10
    ensures IsDigit(c) && DigitValue(c) == d
  {
    ('0' as int + d) as char
  }

  /** `s` with its leading white space removed. */
  function TrimStart(s: string): (t: string)
    ensures |t| <= |s| && t == s[|s| - |t|..]
    ensures t == [] || !IsWhiteSpace(t[0])
    ensures forall i :: 0 <= i < |s| - |t| ==> IsWhiteSpace(s[i])
  {
    if s != [] && IsWhiteSpace(s[0]) then TrimStart(s[1..]) else s
  }

  /** The longest prefix of `s` made of decimal digits. */
  function DigitPrefix(s: string): (d: string)
    ensures d <= s && AllDigits(d)
    ensures |d| == |s| || !IsDigit(s[|d|])
  {
    if s != [] && IsDigit(s[0]) then [s[0]] + DigitPrefix(s[1..]) else []
  }

  /** The value of a decimal numeral, read from left to right. */
  function DigitsValue(d: string): nat
    requires AllDigits(d)
  {
    if d == [] then 0 else DigitsValue(d[..|d| - 1]) * 10 + DigitValue(d[|d| - 1])
  }

  /** `parseInt(s, 10)`: skip leading white space, take an optional sign, then the longest
      run of decimal digits; NaN (None) when that run is empty. Whatever follows the digits
      is ignored. */
  function ParseInt(s: string): (r: Option<int>)
    ensures var t := TrimStart(s);
            var u := if t != [] && (t[0] == '-' || t[0] == '+') then t[1..] else t;
            r.Some? <==> u != [] && IsDigit(u[0])
  {
    ParseSigned(TrimStart(s))
  }

  /** `parseInt` after the white space: an optional sign, then the digits. */
  function ParseSigned(t: string): Option<int>
  {
    if t != [] && t[0] == '-' then Negate(ParseDigits(t[1..]))
    else if t != [] && t[0] == '+' then ParseDigits(t[1..])
    else ParseDigits(t)
  }

  function ParseDigits(u: string): Option<int>
  {
    var digits := DigitPrefix(u);
    if digits == [] then None else Some(DigitsValue(digits))
  }

  function Negate(r: Option<int>): Option<int>
  {
    if r.None? then None else Some(-r.value)
  }

  /** The decimal numeral of a natural number, without leading zeros: the reference
      against which `ParseInt` is checked. */
  function DecimalText(n: nat): (s: string)
    ensures |s| >= 1 && AllDigits(s)
    ensures |s| > 1 ==> s[0] != '0'
  {
    if n < 10 then [DigitChar(n)] else DecimalText(n / 10) + [DigitChar(n % 10)]
  }

  lemma {:induction false} DigitsValueOfDecimal(n: nat)
    ensures DigitsValue(DecimalText(n)) == n
  {
    if n >= 10 {
      var s := DecimalText(n);
      assert s[..|s| - 1] == DecimalText(n / 10);
      DigitsValueOfDecimal(n / 10);
    }
  }

  lemma {:induction false} DigitPrefixOfNumeral(d: string, tail: string)
    requires AllDigits(d)
    requires tail == [] || !IsDigit(tail[0])
    ensures DigitPrefix(d + tail) == d
  {
    if d != [] {
      assert (d + tail)[1..] == d[1..] + tail;
      DigitPrefixOfNumeral(d[1..], tail);
    } else {
      assert d + tail == tail;
    }
  }

  /** Round trip: `parseInt` reads back the numeral of `n`, with or without a minus sign,
      and ignores whatever non-digit text follows it (so "7days" reads as 7). */
  lemma ParseIntOfDecimal(n: nat, tail: string)
    requires tail == [] || !IsDigit(tail[0])
    ensures ParseInt(DecimalText(n) + tail) == Some(n)
    ensures ParseInt("-" + DecimalText(n) + tail) == Some(-(n as int))
  {
    ParseIntOfUnsigned(n, tail);
    ParseIntOfNegative(n, tail);
  }

  lemma ParseIntOfUnsigned(n: nat, tail: string)
    requires tail == [] || !IsDigit(tail[0])
    ensures ParseInt(DecimalText(n) + tail) == Some(n)
  {
    ParseDigitsOfDecimal(n, tail);
    NumeralNotTrimmed(DecimalText(n) + tail);
  }

  lemma ParseIntOfNegative(n: nat, tail: string)
    requires tail == [] || !IsDigit(tail[0])
    ensures ParseInt("-" + DecimalText(n) + tail) == Some(-(n as int))
  {
    var u := DecimalText(n) + tail;
    var m := "-" + DecimalText(n) + tail;
    assert m == ['-'] + u;
    NumeralNotTrimmed(m);
    ParseSignedOfMinus(u);
    ParseDigitsOfDecimal(n, tail);
  }

  lemma ParseSignedOfMinus(u: string)
    ensures ParseSigned(['-'] + u) == Negate(ParseDigits(u))
  {
    assert (['-'] + u)[1..] == u;
  }

  lemma ParseDigitsOfDecimal(n: nat, tail: string)
    requires tail == [] || !IsDigit(tail[0])
    ensures ParseDigits(DecimalText(n) + tail) == Some(n)
  {
    DigitsValueOfDecimal(n);
    DigitPrefixOfNumeral(DecimalText(n), tail);
  }

  lemma NumeralNotTrimmed(s: string)
    requires s != [] && (IsDigit(s[0]) || s[0] == '-')
    ensures TrimStart(s) == s
  {
  }

  lemma {:induction false} TrimStartSkipsWhiteSpace(ws: string, s: string)
    requires forall i :: 0 <= i < |ws| ==> IsWhiteSpace(ws[i])
    ensures TrimStart(ws + s) == TrimStart(s)
  {
    if ws == [] {
      assert ws + s == s;
    } else {
      assert (ws + s)[1..] == ws[1..] + s;
      TrimStartSkipsWhiteSpace(ws[1..], s);
    }
  }

  /** Leading white space never changes what `parseInt` reads. */
  lemma ParseIntSkipsWhiteSpace(ws: string, s: string)
    requires forall i :: 0 <= i < |ws| ==> IsWhiteSpace(ws[i])
    ensures ParseInt(ws + s) == ParseInt(s)
  {
    TrimStartSkipsWhiteSpace(ws, s);
  }

  /** Text without a digit after the optional sign reads as NaN. */
  lemma ParseIntNaN(s: string)
    requires var t := TrimStart(s);
             var u := if t != [] && (t[0] == '-' || t[0] == '+') then t[1..] else t;
             u == [] || !IsDigit(u[0])
    ensures ParseInt(s) == None
  {
  }
}

=== FILE: member_activity.dfy ===
/**
 * `getMemberActivity`: one page of the members whose name or e-mail matches the search,
 * most loans first, with the number of matches and of pages, the loans of the page and the
 * average overdue rate of the page.
 */
module MemberActivityQuery {
  import opened Wrappers
  import opened Paging
  import opened Folds

  /** A row of the view. `totalLoans` is an integer column and `overdueRatePercentage` a
      decimal one; a missing value is None. */
  datatype MemberActivity = MemberActivity(
    memberId: string, memberName: string, email: string, joinedAt: string,
    totalLoans: Option<int>, overdueRatePercentage: Option<real>)

  datatype MemberActivityResult = MemberActivityResult(
    members: seq<MemberActivity>, totalItems: nat, totalPages: nat,
    totalLoans: int, avgOverdueRate: real)

  /** `parseInt(member.total_loans || '0')`. */
  function Loans(m: MemberActivity): int
  {
    if m.totalLoans.Some? then m.totalLoans.value else 0
  }

  /** `parseFloat(member.overdue_rate_percentage || '0')`. */
  function Rate(m: MemberActivity): real
  {
    if m.overdueRatePercentage.Some? then m.overdueRatePercentage.value else 0.0
  }

  /** The mean overdue rate of `members`, 0 for no members. */
  function AverageRate(members: seq<MemberActivity>): (avg: real)
    ensures members == [] ==> avg == 0.0
    ensures members != [] ==> avg * |members| as real == SumReal(members, Rate)
  {
    if |members| > 0 then SumReal(members, Rate) / |members| as real else 0.0
  }

  function GetMemberActivity(page: int, limit: int, matching: seq<MemberActivity>): (r: MemberActivityResult)
    requires page >= 1 && limit >= 1
    ensures IsWindow(r.members, matching, Offset(page, limit), limit) && |r.members| <= limit
    ensures r.totalItems == |matching|
    ensures IsPageCount(r.totalPages, r.totalItems, limit)
    ensures r.totalLoans == SumInt(r.members, Loans)
    ensures r.members == [] ==> r.totalLoans == 0 && r.avgOverdueRate == 0.0
    ensures r.members != [] ==> r.avgOverdueRate * |r.members| as real == SumReal(r.members, Rate)
  {
    var offset := Offset(page, limit);
    var members := Slice(matching, offset, limit);
    var totalItems := |matching|;
    MemberActivityResult(members, totalItems, CeilDiv(totalItems, limit),
                         SumInt(members, Loans), AverageRate(members))
  }

  /** The average of rates between `lo` and `hi` is between `lo` and `hi` (so percentages
      average to a percentage). */
  lemma AverageWithinBounds(page: int, limit: int, matching: seq<MemberActivity>, lo: real, hi: real)
    requires page >= 1 && limit >= 1 && lo <= 0.0 <= hi
    requires forall i :: 0 <= i < |matching| ==> lo <= Rate(matching[i]) <= hi
    ensures lo <= GetMemberActivity(page, limit, matching).avgOverdueRate <= hi
  {
    var members := GetMemberActivity(page, limit, matching).members;
    if members != [] {
      forall i | 0 <= i < |members| ensures lo <= Rate(members[i]) <= hi {
        assert members[i] == matching[Offset(page, limit) + i];
      }
      MeanWithinBounds(members, lo, hi);
    }
  }

  lemma MeanWithinBounds(members: seq<MemberActivity>, lo: real, hi: real)
    requires members != []
    requires forall i :: 0 <= i < |members| ==> lo <= Rate(members[i]) <= hi
    ensures lo <= AverageRate(members) <= hi
  {
    SumRealBounds(members, Rate, lo, hi);
    DivideBounds(AverageRate(members), |members| as real, SumReal(members, Rate), lo, hi);
  }

  lemma DivideBounds(avg: real, n: real, sum: real, lo: real, hi: real)
    requires n > 0.0 && avg * n == sum && lo * n <= sum <= hi * n
    ensures lo <= avg <= hi
  {
  }

  /** When the matching members are ordered by loans, most first, so is every page. */
  lemma MostLoansFirst(page: int, limit: int, matching: seq<MemberActivity>)
    requires page >= 1 && limit >= 1
    requires forall i, j :: 0 <= i < j < |matching| ==> Loans(matching[i]) >= Loans(matching[j])
    ensures var members := GetMemberActivity(page, limit, matching).members;
            forall i, j :: 0 <= i < j < |members| ==> Loans(members[i]) >= Loans(members[j])
  {
    SliceKeepsOrder(matching, Offset(page, limit), limit, (a: MemberActivity, b: MemberActivity) => Loans(a) >= Loans(b));
  }

  /** The loan total covers the returned page only: the page totals over `1 .. totalPages`
      add up to the loans of all matching members, when every page request sees the matches
      in the same order `matching`. */
  lemma LoansOfAllPages(limit: int, matching: seq<MemberActivity>)
    requires limit >= 1
    ensures |PageTotalsInt(matching, limit, Loans)| == GetMemberActivity(1, limit, matching).totalPages
    ensures SumInt(PageTotalsInt(matching, limit, Loans), Id) == SumInt(matching, Loans)
  {
    PageTotalsAddUpInt(matching, limit, Loans);
  }

  /** Entry `p - 1` of the page totals is the loan total page `p` reports. */
  lemma LoansOfPage(limit: int, matching: seq<MemberActivity>, p: int)
    requires limit >= 1 && 1 <= p <= CeilDiv(|matching|, limit)
    ensures PageTotalsInt(matching, limit, Loans)[p - 1] == GetMemberActivity(p, limit, matching).totalLoans
  {
    assert PageTotalsInt(matching, limit, Loans)[p - 1] == PageTotalInt(matching, limit, Loans, p);
  }
}

=== FILE: most_borrowed_books.dfy ===
/**
 * `getMostBorrowedBooks`: one page of the most borrowed books that match the search, with
 * the number of matches and of pages, and no aggregates. The rows that match are those the
 * store selects for the shared predicate (see `ReportQueries`); the query has no ORDER BY,
 * so nothing is claimed about their order.
 */
module MostBorrowedBooksQuery {
  import opened Paging

  datatype MostBorrowedBook = MostBorrowedBook(
    bookId: string, title: string, author: string, category: string,
    totalLoans: int, loanRank: int)

  datatype MostBorrowedBooksResult = MostBorrowedBooksResult(
    books: seq<MostBorrowedBook>, totalItems: nat, totalPages: nat)

  /** The result for page `page` of `limit` rows, given the rows that match. */
  function GetMostBorrowedBooks(page: int, limit: int, matching: seq<MostBorrowedBook>)
    : (r: MostBorrowedBooksResult)
    requires page >= 1 && limit >= 1
    ensures IsWindow(r.books, matching, Offset(page, limit), limit) && |r.books| <= limit
    ensures r.totalItems == |matching|
    ensures IsPageCount(r.totalPages, r.totalItems, limit)
    ensures r.totalPages == 0 <==> matching == []
  {
    var offset := Offset(page, limit);
    var books := Slice(matching, offset, limit);
    var totalItems := |matching|;
    MostBorrowedBooksResult(books, totalItems, CeilDiv(totalItems, limit))
  }

  /** Walking the pages `1 .. totalPages` visits every matching book: each one is on a page
      within the count, and a page past the last is empty. The pages are taken as windows of
      one `matching` sequence, i.e. the store returns the same order to every request. */
  lemma EveryBookOnAPage(limit: int, matching: seq<MostBorrowedBook>, k: int, page: int)
    requires limit >= 1 && 0 <= k < |matching| && page >= 1
    ensures var p := k / limit + 1;
            var r := GetMostBorrowedBooks(p, limit, matching);
            p <= r.totalPages && k % limit < |r.books| && r.books[k % limit] == matching[k]
    ensures GetMostBorrowedBooks(page, limit, matching).books == []
            <==> page > GetMostBorrowedBooks(page, limit, matching).totalPages
  {
    RowOnItsPage(matching, limit, k);
    PageEmptyIffPastLast(matching, page, limit);
  }
}

=== FILE: overdue_loans.dfy ===
/**
 * `getOverdueLoans`: one page of the overdue loans that match the search, ordered by days
 * overdue (most first), with the number of matches and of pages and the sum of the
 * suggested fines of the page.
 */
module OverdueLoansQuery {
  import opened Wrappers
  import opened Paging
  import opened Folds

  /** A row of the view. `suggestedFine` is a decimal column; a missing value is None. */
  datatype OverdueLoan = OverdueLoan(
    loanId: string, memberName: string, bookTitle: string, dueAt: string,
    diasAtraso: int, suggestedFine: Option<real>)

  datatype OverdueLoansResult = OverdueLoansResult(
    loans: seq<OverdueLoan>, totalItems: nat, totalPages: nat, estimatedFineTotal: real)

  /** `parseFloat(loan.suggested_fine || '0')`: a missing fine counts as 0. */
  function Fine(loan: OverdueLoan): real
  {
    if loan.suggestedFine.Some? then loan.suggestedFine.value else 0.0
  }

  function GetOverdueLoans(page: int, limit: int, matching: seq<OverdueLoan>): (r: OverdueLoansResult)
    requires page >= 1 && limit >= 1
    ensures IsWindow(r.loans, matching, Offset(page, limit), limit) && |r.loans| <= limit
    ensures r.totalItems == |matching|
    ensures IsPageCount(r.totalPages, r.totalItems, limit)
    ensures r.estimatedFineTotal == SumReal(r.loans, Fine)
    ensures r.loans == [] ==> r.estimatedFineTotal == 0.0
  {
    var offset := Offset(page, limit);
    var loans := Slice(matching, offset, limit);
    var totalItems := |matching|;
    OverdueLoansResult(loans, totalItems, CeilDiv(totalItems, limit), SumReal(loans, Fine))
  }

  /** When the matching loans are ordered by days overdue, most first, so is every page. */
  lemma LoansMostOverdueFirst(page: int, limit: int, matching: seq<OverdueLoan>)
    requires page >= 1 && limit >= 1
    requires forall i, j :: 0 <= i < j < |matching| ==> matching[i].diasAtraso >= matching[j].diasAtraso
    ensures var loans := GetOverdueLoans(page, limit, matching).loans;
            forall i, j :: 0 <= i < j < |loans| ==> loans[i].diasAtraso >= loans[j].diasAtraso
  {
    SliceKeepsOrder(matching, Offset(page, limit), limit, (a: OverdueLoan, b: OverdueLoan) => a.diasAtraso >= b.diasAtraso);
  }

  /** The fine total covers the returned page only: the totals of pages `1 .. totalPages`
      add up to the fines of all matching loans, when every page request sees the matches in
      the same order `matching`. */
  lemma FineTotalsOfAllPages(limit: int, matching: seq<OverdueLoan>)
    requires limit >= 1
    ensures |PageTotalsReal(matching, limit, Fine)| == GetOverdueLoans(1, limit, matching).totalPages
    ensures SumReal(PageTotalsReal(matching, limit, Fine), IdReal) == SumReal(matching, Fine)
  {
    PageTotalsAddUpReal(matching, limit, Fine);
  }

  /** Entry `p - 1` of the page totals is the fine total page `p` reports. */
  lemma FineTotalOfPage(limit: int, matching: seq<OverdueLoan>, p: int)
    requires limit >= 1 && 1 <= p <= CeilDiv(|matching|, limit)
    ensures PageTotalsReal(matching, limit, Fine)[p - 1] == GetOverdueLoans(p, limit, matching).estimatedFineTotal
  {
    var totals := PageTotalsReal(matching, limit, Fine);
    assert totals[p - 1] == PageTotalReal(matching, limit, Fine, p);
  }
}

=== FILE: pagination.dfy ===
/**
 * The page links under each report: the current page read from the query string, one link
 * per page `1 .. totalPages` with the current one highlighted, a previous link after page
 * 1 and a next link before the last page. Each link's URL is the current query string
 * with only `page` replaced.
 */
module Pagination {
  import opened Wrappers
  import opened Js
  import Url

  /** `Number(searchParams.get('page')) || 1`: the number in `page`, or 1 when `page` is
      missing (`Number(null)` is 0), 0 or not a number. */
  function CurrentPage(sp: Url.SearchParams, number: string -> JsNumber): (current: JsNumber)
    ensures Truthy(current)
  {
    var n := FromParam(Url.Get(sp, "page"), number);
    if Truthy(n) then n else Finite(1.0)
  }

  lemma CurrentPageDefault(sp: Url.SearchParams, number: string -> JsNumber)
    ensures !Url.Has(sp, "page") ==> CurrentPage(sp, number) == Finite(1.0)
    ensures Url.Has(sp, "page") ==>
              var n := number(Url.Get(sp, "page").value);
              CurrentPage(sp, number) == if n.NaN? || n == Finite(0.0) then Finite(1.0) else n
  {
  }

  /** `Array.from({length: totalPages}, (_, i) => i + 1)`. */
  function PageNumbers(totalPages: nat): (pages: seq<int>)
    ensures |pages| == totalPages
    ensures forall i :: 0 <= i < |pages| ==> pages[i] == i + 1
    ensures forall i, j :: 0 <= i < j < |pages| ==> pages[i] < pages[j]
    ensures forall k :: k in pages <==> 1 <= k <= totalPages
  {
    if totalPages == 0 then [] else PageNumbers(totalPages - 1) + [totalPages]
  }

  datatype Label = Previous | PageLink(number: int) | Next

  /** A rendered link: its label, the page number its URL carries, and whether it has the
      highlighted style. */
  datatype Link = Link(kind: Label, target: JsNumber, highlighted: bool)

  function PageLinks(currentPage: JsNumber, pages: seq<int>): (links: seq<Link>)
    ensures |links| == |pages|
    ensures forall i :: 0 <= i < |links| ==>
              links[i].kind == PageLink(pages[i]) && links[i].target == Finite(pages[i] as real)
              && (links[i].highlighted <==> currentPage == Finite(pages[i] as real))
  {
    if pages == [] then []
    else [Link(PageLink(pages[0]), Finite(pages[0] as real), currentPage == Finite(pages[0] as real))]
         + PageLinks(currentPage, pages[1..])
  }

  /** The previous link, rendered when the current page is past 1. */
  function PreviousLink(currentPage: JsNumber): (links: seq<Link>)
    ensures |links| <= 1 && (links != [] <==> Greater(currentPage, 1))
    ensures links != [] ==> links[0].kind == Previous && !links[0].highlighted
                            && (currentPage.Finite? ==> links[0].target == Finite(currentPage.value - 1.0))
  {
    if Greater(currentPage, 1) then [Link(Previous, Add(currentPage, -1), false)] else []
  }

  /** The next link, rendered when the current page is before the last. */
  function NextLink(currentPage: JsNumber, totalPages: nat): (links: seq<Link>)
    ensures |links| <= 1 && (links != [] <==> Less(currentPage, totalPages))
    ensures links != [] ==> links[0].kind == Next && !links[0].highlighted
                            && (currentPage.Finite? ==> links[0].target == Finite(currentPage.value + 1.0))
  {
    if Less(currentPage, totalPages) then [Link(Next, Add(currentPage, 1), false)] else []
  }

  /** The links in the order they are rendered. */
  function Links(currentPage: JsNumber, totalPages: nat): (links: seq<Link>)
    ensures |links| == totalPages + (if Greater(currentPage, 1) then 1 else 0)
                                  + (if Less(currentPage, totalPages) then 1 else 0)
    ensures forall i :: 0 <= i < |links| ==> links[i].highlighted ==> links[i].kind.PageLink?
  {
    PreviousLink(currentPage) + PageLinks(currentPage, PageNumbers(totalPages)) + NextLink(currentPage, totalPages)
  }

  predicate HasLabel(links: seq<Link>, kind: Label)
  {
    exists i :: 0 <= i < |links| && links[i].kind == kind
  }

  lemma HasLabelConcat(a: seq<Link>, b: seq<Link>, kind: Label)
    ensures HasLabel(a + b, kind) <==> HasLabel(a, kind) || HasLabel(b, kind)
  {
    if HasLabel(a + b, kind) {
      var i :| 0 <= i < |a + b| && (a + b)[i].kind == kind;
      if i >= |a| {
        assert b[i - |a|].kind == kind;
      }
    }
    if HasLabel(a, kind) {
      var i :| 0 <= i < |a| && a[i].kind == kind;
      assert (a + b)[i].kind == kind;
    }
    if HasLabel(b, kind) {
      var i :| 0 <= i < |b| && b[i].kind == kind;
      assert (a + b)[|a| + i].kind == kind;
    }
  }

  /** Splits the rendered list into its three parts; the numbered part has neither a
      previous nor a next link. */
  lemma LinksParts(currentPage: JsNumber, totalPages: nat, kind: Label)
    requires kind == Previous || kind == Next
    ensures HasLabel(Links(currentPage, totalPages), kind)
            <==> HasLabel(PreviousLink(currentPage), kind) || HasLabel(NextLink(currentPage, totalPages), kind)
  {
    var prev, middle, next := PreviousLink(currentPage), PageLinks(currentPage, PageNumbers(totalPages)), NextLink(currentPage, totalPages);
    HasLabelConcat(prev, middle, kind);
    HasLabelConcat(prev + middle, next, kind);
    assert !HasLabel(middle, kind);
  }

  /** The previous link is there exactly when the current page is past 1, comes first and
      leads to the page before. */
  lemma PreviousLinkIff(currentPage: JsNumber, totalPages: nat)
    ensures var links := Links(currentPage, totalPages);
            && (HasLabel(links, Previous) <==> Greater(currentPage, 1))
            && (Greater(currentPage, 1) ==> links[0] == Link(Previous, Add(currentPage, -1), false))
  {
    LinksParts(currentPage, totalPages, Previous);
    assert HasLabel(PreviousLink(currentPage), Previous) <==> Greater(currentPage, 1) by {
      if Greater(currentPage, 1) {
        assert PreviousLink(currentPage)[0].kind == Previous;
      }
    }
  }

  /** The next link is there exactly when the current page is before the last, comes last
      and leads to the page after. */
  lemma NextLinkIff(currentPage: JsNumber, totalPages: nat)
    ensures var links := Links(currentPage, totalPages);
            && (HasLabel(links, Next) <==> Less(currentPage, totalPages))
            && (Less(currentPage, totalPages) ==> links[|links| - 1] == Link(Next, Add(currentPage, 1), false))
  {
    LinksParts(currentPage, totalPages, Next);
    assert HasLabel(NextLink(currentPage, totalPages), Next) <==> Less(currentPage, totalPages) by {
      if Less(currentPage, totalPages) {
        assert NextLink(currentPage, totalPages)[0].kind == Next;
      }
    }
    assert !HasLabel(PreviousLink(currentPage), Next);
  }

  /** The numbered links are the pages `1 .. totalPages` in order, and the one highlighted
      is the link of the current page, if any. */
  lemma NumberedLinks(currentPage: JsNumber, totalPages: nat)
    ensures var links := PageLinks(currentPage, PageNumbers(totalPages));
            && |links| == totalPages
            && (forall i :: 0 <= i < |links| ==> links[i].kind == PageLink(i + 1))
            && (forall i :: 0 <= i < |links| ==> (links[i].highlighted <==> currentPage == Finite((i + 1) as real)))
            && (forall i, j :: 0 <= i < |links| && 0 <= j < |links| && links[i].highlighted && links[j].highlighted ==> i == j)
  {
  }

  /** With no pages there is no numbered link, and, for a current page that is not
      negative, no next link. */
  lemma NoPages(currentPage: JsNumber)
    requires !Less(currentPage, 0)
    ensures var links := Links(currentPage, 0);
            && !HasLabel(links, Next)
            && forall i :: 0 <= i < |links| ==> links[i].kind == Previous
  {
    NextLinkIff(currentPage, 0);
    var links := Links(currentPage, 0);
    assert links == PreviousLink(currentPage) + [] + [];
  }

  /** A negative page in the query string does show a next link with no pages at all. */
  lemma NextWithNegativePage()
    ensures HasLabel(Links(Finite(-3.0), 0), Next)
  {
    NextLinkIff(Finite(-3.0), 0);
  }

  /** `` `${pathname}?${params}` ``: the path and the query of a link. */
  datatype PageUrl = PageUrl(path: string, query: Url.SearchParams)

  /** `createPageURL(pageNumber)`: a copy of the query with `page` set to the page's text. */
  function CreatePageUrl(pathname: string, sp: Url.SearchParams, pageText: string): (url: PageUrl)
    ensures url.path == pathname
    ensures Url.Get(url.query, "page") == Some(pageText)
    ensures forall other :: other != "page" ==> Url.Get(url.query, other) == Url.Get(sp, other)
    ensures Url.Without(url.query, "page") == Url.Without(sp, "page")
  {
    PageUrl(pathname, Url.Set(sp, "page", pageText))
  }

  /** Following a numbered link and reading the current page back gives that page. */
  lemma LinkLeadsToItsPage(pathname: string, sp: Url.SearchParams, number: string -> JsNumber, k: nat)
    requires k >= 1 && number(DecimalText(k)) == Finite(k as real)
    ensures CurrentPage(CreatePageUrl(pathname, sp, DecimalText(k)).query, number) == Finite(k as real)
  {
  }
}

=== FILE: paging.dfy ===
/**
 * Paging arithmetic shared by every report: the number of pages for a row count, the offset
 * of a page, and the rows an ordered result yields under `LIMIT limit OFFSET offset`.
 */
module Paging {

  function Min(a: int, b: int): int
  {
    if a <= b then a else b
  }

  /** `totalPages` counts the pages of `limit` rows needed for `n` rows: enough for all of
      them, and the last page is not empty. */
  predicate IsPageCount(totalPages: nat, n: nat, limit: nat)
  {
    totalPages * limit >= n && (totalPages == 0 || (totalPages - 1) * limit < n)
  }

  /** `Math.ceil(n / limit)` for a row count `n` and a positive page size. */
  function CeilDiv(n: nat, limit: nat): (totalPages: nat)
    requires limit >= 1
    ensures IsPageCount(totalPages, n, limit)
    ensures totalPages == 0 <==> n == 0
    ensures totalPages <= n
  {
    if n == 0 then 0
    else
      var q := (n - 1) / limit;
      assert q * limit + (n - 1) % limit == n - 1;
      assert (q + 1) * limit == q * limit + limit;
      assert q * limit <= q * limit * 1 <= n - 1;
      q + 1
  }

  /** The page count is the only number of pages with that property. */
  lemma PageCountUnique(t: nat, n: nat, limit: nat)
    requires limit >= 1 && IsPageCount(t, n, limit)
    ensures t == CeilDiv(n, limit)
  {
    var c := CeilDiv(n, limit);
    if t > 0 { MulCancelLess(t - 1, c, limit); }
    if c > 0 { MulCancelLess(c - 1, t, limit); }
  }

  lemma MulMonotone(a: nat, b: nat, k: nat)
    requires a <= b
    ensures a * k <= b * k
  {
  }

  lemma MulCancelLess(a: int, b: int, k: int)
    requires k >= 1 && a * k < b * k
    ensures a < b
  {
  }

  /** `(page - 1) * limit`: where page `page` starts, and where the next page starts. */
  function Offset(page: int, limit: int): (offset: int)
    ensures page >= 1 && limit >= 0 ==> offset >= 0
    ensures offset + limit == page * limit
  {
    (page - 1) * limit
  }

  /** `items` is what `LIMIT limit OFFSET offset` keeps of the ordered `rows`: the rows from
      position `offset` on, at most `limit` of them, in order. */
  predicate IsWindow<R(==)>(items: seq<R>, rows: seq<R>, offset: nat, limit: nat)
  {
    && |items| == (if offset >= |rows| then 0 else Min(limit, |rows| - offset))
    && forall i :: 0 <= i < |items| ==> offset + i < |rows| && items[i] == rows[offset + i]
  }

  function Slice<R(==)>(rows: seq<R>, offset: nat, limit: nat): (items: seq<R>)
    ensures IsWindow(items, rows, offset, limit)
    ensures |items| <= limit
  {
    if offset >= |rows| then [] else rows[offset..offset + Min(limit, |rows| - offset)]
  }

  /** A page is empty exactly when its number is past the page count, so a page past the
      last one returns no rows (and no error). */
  lemma PageEmptyIffPastLast<R>(rows: seq<R>, page: int, limit: int)
    requires page >= 1 && limit >= 1
    ensures Slice(rows, Offset(page, limit), limit) == [] <==> page > CeilDiv(|rows|, limit)
  {
    var t := CeilDiv(|rows|, limit);
    if page <= t {
      assert (page - 1) * limit <= (t - 1) * limit by { MulMonotone(page - 1, t - 1, limit); }
    } else {
      assert t * limit <= (page - 1) * limit by { MulMonotone(t, page - 1, limit); }
    }
  }

  /** Every row lies on exactly one page: row `k` is row `k % limit` of page
      `k / limit + 1`, and that page is within the page count. */
  lemma RowOnItsPage<R>(rows: seq<R>, limit: int, k: int)
    requires limit >= 1 && 0 <= k < |rows|
    ensures 1 <= k / limit + 1 <= CeilDiv(|rows|, limit)
    ensures var page := Slice(rows, Offset(k / limit + 1, limit), limit);
            k % limit < |page| && page[k % limit] == rows[k]
  {
    var p := k / limit + 1;
    assert (p - 1) * limit + k % limit == k;
    MulCancelLess(p - 1, CeilDiv(|rows|, limit), limit);
  }

  /** With a single page, the first page is the whole result. */
  lemma SinglePageIsEverything<R>(rows: seq<R>, limit: int)
    requires limit >= 1 && CeilDiv(|rows|, limit) <= 1
    ensures Slice(rows, Offset(1, limit), limit) == rows
  {
  }

  /** `LIMIT`/`OFFSET` keep the order of the result: when every row comes before the later
      ones in the sense of `inOrder` (an `ORDER BY ... DESC`, say), so does every row of a
      page. */
  lemma SliceKeepsOrder<R>(rows: seq<R>, offset: nat, limit: nat, inOrder: (R, R) -> bool)
    requires forall i, j :: 0 <= i < j < |rows| ==> inOrder(rows[i], rows[j])
    ensures var items := Slice(rows, offset, limit);
            forall i, j :: 0 <= i < j < |items| ==> inOrder(items[i], items[j])
  {
    var items := Slice(rows, offset, limit);
    forall i, j | 0 <= i < j < |items| ensures inOrder(items[i], items[j]) {
      assert items[i] == rows[offset + i] && items[j] == rows[offset + j];
    }
  }
}

=== FILE: report_queries.dfy ===
/**
 * The statements of the five per-report query functions. Each report reads one view,
 * filters it with an ILIKE disjunction over its searchable columns against `$1`, and issues
 * two statements: the page (`... ORDER BY ... LIMIT $2 OFFSET $3`, with `%search%`,
 * `limit` and `offset` bound) and the count (`SELECT COUNT(*) ... WHERE <same predicate>`,
 * with only `%search%` bound). Line breaks and indentation of the SQL text are not kept.
 */
module ReportQueries {
  import opened Wrappers
  import opened Sql
  import opened Paging

  datatype Report = MostBorrowedBooks | OverdueLoans | FinesSummary | MemberActivity | InventoryHealth

  function View(r: Report): string
  {
    match r
    case MostBorrowedBooks => "vw_most_borrowed_books"
    case OverdueLoans => "vw_overdue_loans"
    case FinesSummary => "vw_fines_summary"
    case MemberActivity => "vw_member_activity"
    case InventoryHealth => "vw_inventory_health"
  }

  /** The columns the search term is matched against. */
  function SearchColumns(r: Report): (columns: seq<string>)
    ensures columns != []
  {
    match r
    case MostBorrowedBooks => ["title", "author"]
    case OverdueLoans => ["member_name", "book_title"]
    case FinesSummary => ["summary_month"]
    case MemberActivity => ["member_name", "email"]
    case InventoryHealth => ["category"]
  }

  /** The `ORDER BY ... DESC` column of the page query; the most-borrowed-books query has
      none, so the order of its rows is whatever the database returns. */
  function OrderColumn(r: Report): Option<string>
  {
    match r
    case MostBorrowedBooks => None
    case OverdueLoans => Some("dias_atraso")
    case FinesSummary => Some("summary_month")
    case MemberActivity => Some("total_loans")
    case InventoryHealth => Some("total_copies")
  }

  /** The WHERE predicate both statements share. */
  function Predicate(r: Report): seq<Fragment>
  {
    IlikeAny(SearchColumns(r), 1)
  }

  /** `SELECT * FROM <view> WHERE <predicate> [ORDER BY <column> DESC]`: the page query
      without its LIMIT and OFFSET. */
  function Ordered(r: Report): seq<Fragment>
  {
    [Lit("SELECT * FROM " + View(r) + " WHERE ")] + Predicate(r)
    + match OrderColumn(r)
      case None => []
      case Some(column) => [Lit(" ORDER BY " + column + " DESC")]
  }

  /** The page statement and its values `[%search%, limit, offset]`; it binds, using `$1`,
      `$2` and `$3` for its three values. */
  function DataStatement(r: Report, search: string, page: int, limit: int): (st: Statement)
    ensures Bindable(st) && |st.params| == 3
  {
    OrderedPlaceholders(r);
    PlaceholdersConcat(Ordered(r), PageSuffix(1));
    PageSuffixPlaceholders(1);
    assert Ordered(r) + [Lit(LimitWord), Ph(2), Lit(OffsetWord), Ph(3)] == Paged(Ordered(r), 1);
    NumberedPlusTwo(1);
    Statement(Ordered(r) + [Lit(LimitWord), Ph(2), Lit(OffsetWord), Ph(3)],
              [Text(LikePattern(search)), Int(limit), Int(Offset(page, limit))])
  }

  /** The count statement and its one value `[%search%]`, bound to `$1`. */
  function CountStatement(r: Report, search: string): (st: Statement)
    ensures Bindable(st) && |st.params| == 1
  {
    PredicatePlaceholders(r);
    PlaceholdersConcat([Lit("SELECT COUNT(*) FROM " + View(r) + " WHERE ")], Predicate(r));
    Statement([Lit("SELECT COUNT(*) FROM " + View(r) + " WHERE ")] + Predicate(r),
              [Text(LikePattern(search))])
  }

  lemma PredicatePlaceholders(r: Report)
    ensures Placeholders(Predicate(r)) == {1}
  {
    IlikeAnyPlaceholders(SearchColumns(r), 1);
  }

  lemma OrderedPlaceholders(r: Report)
    ensures Placeholders(Ordered(r)) == {1}
  {
    var head := [Lit("SELECT * FROM " + View(r) + " WHERE ")];
    var tail := match OrderColumn(r) case None => [] case Some(column) => [Lit(" ORDER BY " + column + " DESC")];
    PredicatePlaceholders(r);
    PlaceholdersConcat(head, Predicate(r));
    PlaceholdersConcat(head + Predicate(r), tail);
    assert Placeholders(tail) == {} by {
      if tail != [] { assert tail[1..] == []; }
    }
  }

  /** The two statements of a request share the predicate and its value: `$1` is the same
      `%search%` pattern in both, the page statement binds `limit` and `offset` after it,
      and the count statement binds nothing else. */
  lemma StatementsShareThePredicate(r: Report, search: string, page: int, limit: int)
    ensures var data, count := DataStatement(r, search, page, limit), CountStatement(r, search);
            && data.params[0] == count.params[0] == Text(LikePattern(search))
            && data.params[1..] == [Int(limit), Int((page - 1) * limit)]
            && |count.params| == 1
            && data.sql[1..1 + |Predicate(r)|] == count.sql[1..] == Predicate(r)
  {
    SharedPredicateText(r, search, page, limit);
  }

  lemma SharedPredicateText(r: Report, search: string, page: int, limit: int)
    ensures var data, count := DataStatement(r, search, page, limit), CountStatement(r, search);
            data.sql[1..1 + |Predicate(r)|] == count.sql[1..] == Predicate(r)
  {
    var order := match OrderColumn(r) case None => [] case Some(column) => [Lit(" ORDER BY " + column + " DESC")];
    var suffix := [Lit(LimitWord), Ph(2), Lit(OffsetWord), Ph(3)];
    assert DataStatement(r, search, page, limit).sql
           == [Lit("SELECT * FROM " + View(r) + " WHERE ")] + Predicate(r) + (order + suffix);
    Middle([Lit("SELECT * FROM " + View(r) + " WHERE ")], Predicate(r), order + suffix);
    Middle([Lit("SELECT COUNT(*) FROM " + View(r) + " WHERE ")], Predicate(r), []);
    assert CountStatement(r, search).sql
           == [Lit("SELECT COUNT(*) FROM " + View(r) + " WHERE ")] + Predicate(r) + [];
  }

  lemma Middle<T>(a: seq<T>, b: seq<T>, c: seq<T>)
    ensures (a + b + c)[|a|..|a| + |b|] == b
  {
  }

  /** The page statement returns the window `[(page - 1) * limit, page * limit)` of the
      rows the ordered query selects for the same pattern, at most `limit` of them; it fails
      when the limit or the offset is beyond `bigint`. */
  lemma DataStatementWindow<R>(store: Store<R>, r: Report, search: string, page: int, limit: int)
    requires page >= 1 && limit >= 1
    ensures var ps := [Text(LikePattern(search))];
            && InRange(Ordered(r), |ps|)
            && Execute(store, DataStatement(r, search, page, limit))
            == if !PagingValue(limit) || !PagingValue(Offset(page, limit)) then None
               else match store.select(Bind(Ordered(r), ps))
                    case None => None
                    case Some(rows) => Some(Rows(Slice(rows, Offset(page, limit), limit)))
  {
    var ps := [Text(LikePattern(search))];
    OrderedPlaceholders(r);
    assert DataStatement(r, search, page, limit)
           == Statement(Paged(Ordered(r), |ps|), ps + [Int(limit), Int(Offset(page, limit))]);
    ExecutePaged(store, Ordered(r), ps, limit, Offset(page, limit));
  }

  /** The SQL text of both statements is the same for every search term and page: the
      term reaches the database only as the bound value `$1`. */
  lemma SqlIndependentOfSearch(r: Report, a: string, b: string, page: int, limit: int, page': int, limit': int)
    ensures DataStatement(r, a, page, limit).sql == DataStatement(r, b, page', limit').sql
    ensures CountStatement(r, a).sql == CountStatement(r, b).sql
    ensures DataStatement(r, a, page, limit).params[0] != DataStatement(r, b, page, limit).params[0] <==> a != b
  {
    if a != b {
      assert LikePattern(a)[1..|LikePattern(a)| - 1] == a;
    }
  }
}

=== FILE: sql.dfy ===
/**
 * SQL statements as data. A statement is a sequence of fragments, each either literal text
 * or a positional placeholder `$k`, together with the list of values bound to `$1`, `$2`, ...
 * The database substitutes values for placeholders as data, never as text, so a value can
 * never change the structure of a statement.
 */
module Sql {
  import opened Wrappers
  import opened Paging

  datatype Fragment = Lit(text: string) | Ph(index: nat)

  /** A value bound to a placeholder. */
  datatype Param = Text(text: string) | Int(value: int)

  datatype Statement = Statement(sql: seq<Fragment>, params: seq<Param>)

  /** A statement after binding: its literal words, and the values in place of the placeholders. */
  datatype Token = Word(text: string) | Value(param: Param)

  /** The placeholder numbers a statement refers to. */
  function Placeholders(sql: seq<Fragment>): (ks: set<nat>)
    ensures forall i :: 0 <= i < |sql| && sql[i].Ph? ==> sql[i].index in ks
  {
    if sql == [] then {}
    else (if sql[0].Ph? then {sql[0].index} else {}) + Placeholders(sql[1..])
  }

  lemma {:induction false} PlaceholdersConcat(a: seq<Fragment>, b: seq<Fragment>)
    ensures Placeholders(a + b) == Placeholders(a) + Placeholders(b)
  {
    if a == [] {
      assert a + b == b;
    } else {
      assert (a + b)[1..] == a[1..] + b;
      PlaceholdersConcat(a[1..], b);
    }
  }

  /** The placeholder numbers `$1` .. `$n`. */
  function Numbered(n: nat): (ks: set<nat>)
    ensures forall k :: k in ks <==> 1 <= k <= n
  {
    if n == 0 then {} else Numbered(n - 1) + {n}
  }

  /** Every placeholder refers to one of `n` bound values. */
  predicate InRange(sql: seq<Fragment>, n: nat)
  {
    forall k :: k in Placeholders(sql) ==> 1 <= k <= n
  }

  /** PostgreSQL accepts a statement only when its placeholders are exactly `$1` .. `$n` for
      the `n` values bound to it: a value no placeholder uses, or a placeholder without a
      value, is an error. */
  predicate Bindable(st: Statement)
  {
    Placeholders(st.sql) == Numbered(|st.params|)
  }

  function BindOne(f: Fragment, ps: seq<Param>): Token
    requires f.Ph? ==> 1 <= f.index <= |ps|
  {
    match f
    case Lit(s) => Word(s)
    case Ph(k) => Value(ps[k - 1])
  }

  /** Substitute the bound values for the placeholders: literal text stays a word, and
      placeholder `$k` becomes the k-th value. */
  function Bind(sql: seq<Fragment>, ps: seq<Param>): (t: seq<Token>)
    requires InRange(sql, |ps|)
    ensures |t| == |sql|
    ensures forall i :: 0 <= i < |sql| && sql[i].Lit? ==> t[i] == Word(sql[i].text)
    ensures forall i :: 0 <= i < |sql| && sql[i].Ph? ==>
              1 <= sql[i].index <= |ps| && t[i] == Value(ps[sql[i].index - 1])
  {
    if sql == [] then []
    else
      assert Placeholders(sql[1..]) <= Placeholders(sql);
      [BindOne(sql[0], ps)] + Bind(sql[1..], ps)
  }

  /** Binding works fragment by fragment. */
  lemma BindConcat(a: seq<Fragment>, b: seq<Fragment>, ps: seq<Param>)
    requires InRange(a + b, |ps|)
    ensures InRange(a, |ps|) && InRange(b, |ps|)
    ensures Bind(a + b, ps) == Bind(a, ps) + Bind(b, ps)
  {
    PlaceholdersConcat(a, b);
    var t, u := Bind(a + b, ps), Bind(a, ps) + Bind(b, ps);
    forall i | 0 <= i < |t| ensures t[i] == u[i] {
      if i < |a| {
        assert (a + b)[i] == a[i];
      } else {
        assert (a + b)[i] == b[i - |a|];
      }
    }
  }

  /** Values bound beyond the placeholders a fragment sequence uses do not change it. */
  lemma BindExtend(sql: seq<Fragment>, ps: seq<Param>, more: seq<Param>)
    requires InRange(sql, |ps|)
    ensures InRange(sql, |ps + more|)
    ensures Bind(sql, ps + more) == Bind(sql, ps)
  {
    var t, u := Bind(sql, ps + more), Bind(sql, ps);
    forall i | 0 <= i < |sql| ensures t[i] == u[i] {
      if sql[i].Ph? {
        assert (ps + more)[sql[i].index - 1] == ps[sql[i].index - 1];
      }
    }
  }

  /** Every literal fragment is one of `words`. */
  predicate LitsIn(sql: seq<Fragment>, words: set<string>)
  {
    forall i :: 0 <= i < |sql| && sql[i].Lit? ==> sql[i].text in words
  }

  lemma LitsInConcat(a: seq<Fragment>, b: seq<Fragment>, words: set<string>)
    ensures LitsIn(a + b, words) <==> LitsIn(a, words) && LitsIn(b, words)
  {
    if LitsIn(a, words) && LitsIn(b, words) {
      forall i | 0 <= i < |a + b| && (a + b)[i].Lit? ensures (a + b)[i].text in words {
        if i >= |a| { assert (a + b)[i] == b[i - |a|]; }
      }
    }
    if LitsIn(a + b, words) {
      forall i | 0 <= i < |b| && b[i].Lit? ensures b[i].text in words {
        assert (a + b)[|a| + i] == b[i];
      }
      forall i | 0 <= i < |a| && a[i].Lit? ensures a[i].text in words {
        assert (a + b)[i] == a[i];
      }
    }
  }

  /** `parts.join(sep)`: the parts with the literal `sep` between neighbours. */
  function Join(parts: seq<seq<Fragment>>, sep: string): seq<Fragment>
  {
    if |parts| == 0 then []
    else if |parts| == 1 then parts[0]
    else parts[0] + [Lit(sep)] + Join(parts[1..], sep)
  }

  /** The placeholders of all parts. */
  function PlaceholdersOf(parts: seq<seq<Fragment>>): set<nat>
  {
    if parts == [] then {} else Placeholders(parts[0]) + PlaceholdersOf(parts[1..])
  }

  /** Joining adds no placeholder and drops none. */
  lemma {:induction false} JoinPlaceholders(parts: seq<seq<Fragment>>, sep: string)
    ensures Placeholders(Join(parts, sep)) == PlaceholdersOf(parts)
  {
    if |parts| == 1 {
      assert parts[1..] == [];
    } else if |parts| > 1 {
      JoinPlaceholders(parts[1..], sep);
      PlaceholdersConcat(parts[0] + [Lit(sep)], Join(parts[1..], sep));
      PlaceholdersConcat(parts[0], [Lit(sep)]);
    }
  }

  /** Joining adds no literal text other than the separator. */
  lemma {:induction false} JoinLits(parts: seq<seq<Fragment>>, sep: string, words: set<string>)
    requires sep in words
    requires forall j :: 0 <= j < |parts| ==> LitsIn(parts[j], words)
    ensures LitsIn(Join(parts, sep), words)
  {
    if |parts| > 1 {
      JoinLits(parts[1..], sep, words);
      LitsInConcat(parts[0], [Lit(sep)], words);
      LitsInConcat(parts[0] + [Lit(sep)], Join(parts[1..], sep), words);
    }
  }

  /** `columns.map(c => `${c} ILIKE $n`)`: one comparison per column, each against the same
      placeholder `$n`. */
  function IlikeTerms(columns: seq<string>, n: nat): (terms: seq<seq<Fragment>>)
    ensures |terms| == |columns|
    ensures forall j :: 0 <= j < |terms| ==> terms[j] == [Lit(columns[j] + " ILIKE "), Ph(n)]
  {
    if columns == [] then [] else [[Lit(columns[0] + " ILIKE "), Ph(n)]] + IlikeTerms(columns[1..], n)
  }

  /** `col1 ILIKE $n OR col2 ILIKE $n ...`. */
  function IlikeAny(columns: seq<string>, n: nat): seq<Fragment>
  {
    Join(IlikeTerms(columns, n), " OR ")
  }

  /** Every column of an ILIKE disjunction refers to the one placeholder `$n`. */
  lemma IlikeAnyPlaceholders(columns: seq<string>, n: nat)
    ensures Placeholders(IlikeAny(columns, n)) == if columns == [] then {} else {n}
  {
    JoinPlaceholders(IlikeTerms(columns, n), " OR ");
    TermsPlaceholders(columns, n);
  }

  lemma {:induction false} TermsPlaceholders(columns: seq<string>, n: nat)
    ensures PlaceholdersOf(IlikeTerms(columns, n)) == if columns == [] then {} else {n}
  {
    if columns != [] {
      TermsPlaceholders(columns[1..], n);
      var terms := IlikeTerms(columns, n);
      assert terms[1..] == IlikeTerms(columns[1..], n);
      PlaceholdersConcat([Lit(columns[0] + " ILIKE ")], [Ph(n)]);
      assert [Lit(columns[0] + " ILIKE ")] + [Ph(n)] == terms[0];
    }
  }

  /** An ILIKE disjunction is made only of the column comparisons and " OR ". */
  lemma IlikeAnyLits(columns: seq<string>, n: nat, words: set<string>)
    requires " OR " in words
    requires forall j :: 0 <= j < |columns| ==> columns[j] + " ILIKE " in words
    ensures LitsIn(IlikeAny(columns, n), words)
  {
    JoinLits(IlikeTerms(columns, n), " OR ", words);
  }

  /** The `%term%` pattern bound for a search term. `%` and `_` inside the term are not
      escaped, so they act as ILIKE wildcards rather than as literal characters. */
  function LikePattern(term: string): (p: string)
    ensures |p| == |term| + 2 && p[0] == '%' && p[|p| - 1] == '%' && p[1..|p| - 1] == term
  {
    "%" + term + "%"
  }

  const CountHead := "SELECT COUNT(*) FROM ("
  const CountTail := ") as subquery"
  const LimitWord := " LIMIT "
  const OffsetWord := " OFFSET "

  /** PostgreSQL reads the values of LIMIT and OFFSET as `bigint` and rejects a negative
      one; a value outside `0 .. 2^63 - 1` makes the statement fail. */
  const MaxBigint: int := 0x7FFF_FFFF_FFFF_FFFF

  predicate PagingValue(v: int)
  {
    0 <= v <= MaxBigint
  }

  /** `SELECT COUNT(*) FROM (<sql>) as subquery`. */
  function CountWrap(sql: seq<Fragment>): seq<Fragment>
  {
    [Lit(CountHead)] + sql + [Lit(CountTail)]
  }

  /** `<sql> LIMIT $n+1 OFFSET $n+2`, for `sql` with `n` bound values. */
  function Paged(sql: seq<Fragment>, n: nat): seq<Fragment>
  {
    sql + PageSuffix(n)
  }

  function PageSuffix(n: nat): seq<Fragment>
  {
    [Lit(LimitWord), Ph(n + 1), Lit(OffsetWord), Ph(n + 2)]
  }

  lemma PageSuffixPlaceholders(n: nat)
    ensures Placeholders(PageSuffix(n)) == {n + 1, n + 2}
  {
    var s := PageSuffix(n);
    assert s[3..][1..] == [];
    assert Placeholders(s[3..]) == {n + 2};
    assert s[2..][1..] == s[3..];
    assert Placeholders(s[2..]) == {n + 2};
    assert s[1..][1..] == s[2..];
    assert Placeholders(s[1..]) == {n + 1, n + 2};
  }

  lemma NumberedPlusTwo(n: nat)
    ensures Numbered(n + 2) == Numbered(n) + {n + 1, n + 2}
  {
  }

  /** The data store. `select` gives the rows, in the order the database returns them, that a
      bound query without COUNT, LIMIT or OFFSET yields, or None when the store fails. Which
      rows match a predicate (ILIKE) and how ORDER BY orders them is the store's business. */
  datatype Store<R> = Store(select: seq<Token> -> Option<seq<R>>)

  datatype Answer<R> = Rows(rows: seq<R>) | Count(count: nat)

  /** What the database answers for a bound statement: a COUNT(*) subquery counts the rows of
      the inner query; a trailing LIMIT/OFFSET keeps a window of them (negative values are an
      error, and so are values beyond `bigint`); any other query returns its rows. */
  function Run<R(==)>(store: Store<R>, t: seq<Token>): (a: Option<Answer<R>>)
    ensures a.Some? && a.value.Count? <==>
              2 <= |t| && t[0] == Word(CountHead) && t[|t| - 1] == Word(CountTail)
              && store.select(t[1..|t| - 1]).Some?
    ensures (a.Some? && a.value.Rows? && 4 <= |t| && t[|t| - 4] == Word(LimitWord)
             && t[|t| - 3].Value? && t[|t| - 3].param.Int? && t[|t| - 2] == Word(OffsetWord)
             && t[|t| - 1].Value? && t[|t| - 1].param.Int?)
            ==> PagingValue(t[|t| - 3].param.value) && PagingValue(t[|t| - 1].param.value)
                && |a.value.rows| <= t[|t| - 3].param.value
  {
    if 2 <= |t| && t[0] == Word(CountHead) && t[|t| - 1] == Word(CountTail) then
      match store.select(t[1..|t| - 1])
      case None => None
      case Some(rows) => Some(Count(|rows|))
    else if 4 <= |t| && t[|t| - 4] == Word(LimitWord) && t[|t| - 2] == Word(OffsetWord)
            && t[|t| - 3].Value? && t[|t| - 3].param.Int?
            && t[|t| - 1].Value? && t[|t| - 1].param.Int? then
      var limit, offset := t[|t| - 3].param.value, t[|t| - 1].param.value;
      if !PagingValue(limit) || !PagingValue(offset) then None
      else
        match store.select(t[..|t| - 4])
        case None => None
        case Some(rows) => Some(Rows(Slice(rows, offset, limit)))
    else
      match store.select(t)
      case None => None
      case Some(rows) => Some(Rows(rows))
  }

  /** `pool.query(sql, params)`: a statement the database cannot bind fails. */
  function Execute<R(==)>(store: Store<R>, st: Statement): Option<Answer<R>>
  {
    if Bindable(st) then Run(store, Bind(st.sql, st.params)) else None
  }

  lemma NumberedInRange(sql: seq<Fragment>, n: nat)
    requires Placeholders(sql) == Numbered(n)
    ensures InRange(sql, n)
  {
  }

  /** Wrapping a query in COUNT(*) keeps its placeholders, so it binds with the same values. */
  lemma CountWrapBindable(sql: seq<Fragment>, ps: seq<Param>)
    requires Placeholders(sql) == Numbered(|ps|)
    ensures Bindable(Statement(CountWrap(sql), ps))
  {
    PlaceholdersConcat([Lit(CountHead)], sql);
    PlaceholdersConcat([Lit(CountHead)] + sql, [Lit(CountTail)]);
  }

  /** Appending LIMIT $n+1 OFFSET $n+2 and binding two more values keeps a statement bindable. */
  lemma PagedBindable(sql: seq<Fragment>, ps: seq<Param>, limit: int, offset: int)
    requires Placeholders(sql) == Numbered(|ps|)
    ensures Bindable(Statement(Paged(sql, |ps|), ps + [Int(limit), Int(offset)]))
  {
    PlaceholdersConcat(sql, PageSuffix(|ps|));
    PageSuffixPlaceholders(|ps|);
    NumberedPlusTwo(|ps|);
  }

  /** The COUNT(*) statement counts exactly the rows the wrapped query selects. */
  lemma ExecuteCountWrap<R>(store: Store<R>, sql: seq<Fragment>, ps: seq<Param>)
    requires Placeholders(sql) == Numbered(|ps|)
    ensures Execute(store, Statement(CountWrap(sql), ps))
            == match store.select(Bind(sql, ps))
               case None => None
               case Some(rows) => Some(Count(|rows|))
  {
    CountWrapBindable(sql, ps);
    BindConcat([Lit(CountHead)] + sql, [Lit(CountTail)], ps);
    BindConcat([Lit(CountHead)], sql, ps);
    var t := Bind(CountWrap(sql), ps);
    assert t == [Word(CountHead)] + Bind(sql, ps) + [Word(CountTail)];
    assert t[1..|t| - 1] == Bind(sql, ps);
  }

  /** The paged statement returns the window `[offset, offset + limit)` of the rows the
      unpaged query selects with the values bound before the two paging values, and fails
      when either paging value is beyond `bigint`. */
  lemma ExecutePaged<R>(store: Store<R>, sql: seq<Fragment>, ps: seq<Param>, limit: nat, offset: nat)
    requires Placeholders(sql) == Numbered(|ps|)
    ensures Execute(store, Statement(Paged(sql, |ps|), ps + [Int(limit), Int(offset)]))
            == if !PagingValue(limit) || !PagingValue(offset) then None
               else match store.select(Bind(sql, ps))
                    case None => None
                    case Some(rows) => Some(Rows(Slice(rows, offset, limit)))
  {
    var n := |ps|;
    var all := ps + [Int(limit), Int(offset)];
    PagedBindable(sql, ps, limit, offset);
    BindConcat(sql, PageSuffix(n), all);
    BindExtend(sql, ps, [Int(limit), Int(offset)]);
    BindPageSuffix(n, all);
    RunPaged(store, Bind(sql, ps), limit, offset);
  }

  lemma BindPageSuffix(n: nat, all: seq<Param>)
    requires |all| == n + 2 && all[n].Int? && all[n + 1].Int?
    ensures InRange(PageSuffix(n), |all|)
    ensures Bind(PageSuffix(n), all)
            == [Word(LimitWord), Value(all[n]), Word(OffsetWord), Value(all[n + 1])]
  {
    PageSuffixPlaceholders(n);
    var s := PageSuffix(n);
    assert InRange(s, |all|);
    var t := Bind(s, all);
    assert t[0] == Word(LimitWord) && t[2] == Word(OffsetWord);
    assert s[1].Ph? && s[3].Ph?;
    assert t[1] == Value(all[n]) && t[3] == Value(all[n + 1]);
  }

  lemma RunPaged<R>(store: Store<R>, inner: seq<Token>, limit: nat, offset: nat)
    ensures Run(store, inner + [Word(LimitWord), Value(Int(limit)), Word(OffsetWord), Value(Int(offset))])
            == if !PagingValue(limit) || !PagingValue(offset) then None
               else match store.select(inner)
                    case None => None
                    case Some(rows) => Some(Rows(Slice(rows, offset, limit)))
  {
    var t := inner + [Word(LimitWord), Value(Int(limit)), Word(OffsetWord), Value(Int(offset))];
    assert t[..|t| - 4] == inner;
  }
}

=== FILE: url.dfy ===
/**
 * The query string of a URL as `URLSearchParams` holds it: the list of decoded
 * name-value pairs, in order, with `get`, `has` and `set` as the URL standard defines them.
 */
module Url {
  import opened Wrappers

  type SearchParams = seq<(string, string)>

  /** `has(name)`: some pair is named `name`. */
  predicate Has(ps: SearchParams, name: string)
  {
    exists i :: 0 <= i < |ps| && ps[i].0 == name
  }

  /** `get(name)`: the value of the first pair named `name`, or `null` (None). */
  function Get(ps: SearchParams, name: string): (v: Option<string>)
    ensures v.Some? <==> Has(ps, name)
    ensures v.Some? ==> exists i :: 0 <= i < |ps| && ps[i] == (name, v.value)
                                    && forall j :: 0 <= j < i ==> ps[j].0 != name
  {
    if ps == [] then None
    else if ps[0].0 == name then Some(ps[0].1)
    else
      var v := Get(ps[1..], name);
      assert v.Some? ==> exists i :: 0 <= i < |ps| && ps[i] == (name, v.value)
                                     && forall j :: 0 <= j < i ==> ps[j].0 != name by {
        if v.Some? {
          var i :| 0 <= i < |ps[1..]| && ps[1..][i] == (name, v.value)
                   && forall j :: 0 <= j < i ==> ps[1..][j].0 != name;
          assert ps[i + 1] == (name, v.value);
          assert forall j :: 0 <= j < i + 1 ==> ps[j].0 != name by {
            forall j | 0 <= j < i + 1 ensures ps[j].0 != name {
              if j > 0 { assert ps[j] == ps[1..][j - 1]; }
            }
          }
        }
      }
      assert Has(ps, name) ==> Has(ps[1..], name) by {
        if Has(ps, name) {
          var i :| 0 <= i < |ps| && ps[i].0 == name;
          assert i > 0 && ps[1..][i - 1].0 == name;
        }
      }
      v
  }

  /** The pairs not named `name`, in their order. */
  function Without(ps: SearchParams, name: string): (r: SearchParams)
    ensures !Has(r, name)
    ensures |r| <= |ps|
    ensures !Has(ps, name) ==> r == ps
  {
    if ps == [] then []
    else if ps[0].0 == name then Without(ps[1..], name)
    else [ps[0]] + Without(ps[1..], name)
  }

  lemma {:induction false} WithoutAppend(ps: SearchParams, p: (string, string), name: string)
    requires p.0 == name
    ensures Without(ps + [p], name) == Without(ps, name)
  {
    if ps == [] {
      assert [p][1..] == [];
    } else {
      assert (ps + [p])[1..] == ps[1..] + [p];
      WithoutAppend(ps[1..], p, name);
    }
  }

  lemma {:induction false} GetAppend(ps: SearchParams, p: (string, string))
    requires !Has(ps, p.0)
    ensures Get(ps + [p], p.0) == Some(p.1)
  {
    if ps == [] {
    } else {
      assert (ps + [p])[1..] == ps[1..] + [p];
      assert forall i :: 0 <= i < |ps[1..]| ==> ps[1..][i] == ps[i + 1];
      GetAppend(ps[1..], p);
    }
  }

  /** Dropping the pairs named `name` keeps the first value of every other name. */
  lemma {:induction false} GetWithout(ps: SearchParams, name: string, other: string)
    requires other != name
    ensures Get(Without(ps, name), other) == Get(ps, other)
  {
    if ps != [] {
      GetWithout(ps[1..], name, other);
    }
  }

  /** `set` when a pair named `name` exists: the first such pair takes `value`, the others go. */
  function SetFirst(ps: SearchParams, name: string, value: string): (r: SearchParams)
    requires Has(ps, name)
    ensures r != [] && Get(r, name) == Some(value)
    ensures Without(r, name) == Without(ps, name)
    ensures |r| == |Without(r, name)| + 1
  {
    if ps[0].0 == name then [(name, value)] + Without(ps[1..], name)
    else
      assert Has(ps[1..], name) by {
        var i :| 0 <= i < |ps| && ps[i].0 == name;
        assert i > 0 && ps[1..][i - 1].0 == name;
      }
      [ps[0]] + SetFirst(ps[1..], name, value)
  }

  /** `set(name, value)`: afterwards exactly one pair is named `name` and it holds `value`;
      the pairs of every other name are untouched and keep their order. */
  function Set(ps: SearchParams, name: string, value: string): (r: SearchParams)
    ensures Get(r, name) == Some(value)
    ensures Without(r, name) == Without(ps, name)
    ensures |r| == |Without(r, name)| + 1
    ensures forall other :: other != name ==> Get(r, other) == Get(ps, other)
  {
    var r := if Has(ps, name) then SetFirst(ps, name, value) else Append(ps, name, value);
    SameOutside(r, ps, name);
    r
  }

  /** `set` when no pair is named `name`: a new pair goes at the end. */
  function Append(ps: SearchParams, name: string, value: string): (r: SearchParams)
    requires !Has(ps, name)
    ensures Get(r, name) == Some(value)
    ensures Without(r, name) == Without(ps, name)
    ensures |r| == |Without(r, name)| + 1
  {
    GetAppend(ps, (name, value));
    WithoutAppend(ps, (name, value), name);
    ps + [(name, value)]
  }

  lemma SameOutside(r: SearchParams, ps: SearchParams, name: string)
    requires Without(r, name) == Without(ps, name)
    ensures forall other :: other != name ==> Get(r, other) == Get(ps, other)
  {
    forall other | other != name ensures Get(r, other) == Get(ps, other) {
      GetWithout(r, name, other);
      GetWithout(ps, name, other);
    }
  }
}

=== FILE: validation.dfy ===
/**
 * The generic report endpoint `GET /api/reports/<reportName>`: it checks the report name
 * against a whitelist of views, validates `page` and `limit`, builds a parameterised
 * `SELECT` over the view (with a search or a minimum-delay filter for two of the reports),
 * counts the matching rows with a `COUNT(*)` around that query, fetches one page of them
 * with `LIMIT`/`OFFSET`, and answers with the page and its pagination data, or with
 * 404, 400 or 500.
 */
module Validation {
  import opened Wrappers
  import opened Js
  import Url
  import opened Sql
  import opened Paging

  // ---------------------------------------------------------------------------------------
  // Paging schema: `page` is an integer >= 1 (default 1); `limit` an integer in 1..100
  // (default 10). Each is converted with `Number(...)` before the checks.
  // ---------------------------------------------------------------------------------------

  datatype Field = PageField | LimitField

  /** The schema's issue codes: NaN is `invalid_type` (and stops the checks of that field);
      the others are the failed `int`, `min` and `max` checks, in that order. */
  datatype IssueKind = NotANumber | NotInteger | TooSmall | TooBig

  datatype Issue = Issue(field: Field, kind: IssueKind)

  /** What a missing query parameter becomes. `URLSearchParams.get` yields `null` for it, and
      a schema default applies only to an undefined input: under `CoerceAbsent` the `null` is
      converted, giving 0; under `DefaultWhenAbsent` the default is used. */
  datatype AbsentPolicy = DefaultWhenAbsent | CoerceAbsent

  datatype PageRequest = PageRequest(page: int, limit: int)

  const DefaultPage := 1
  const DefaultLimit := 10
  const MaxLimit := 100

  /** The reference definition of an accepted value: an integer, at least 1, and at most
      `max` when there is a maximum. */
  predicate Accepts(n: JsNumber, max: Option<int>)
  {
    n.Finite? && IsInteger(n) && n.value >= 1.0 && (max.None? || n.value <= max.value as real)
  }

  /** The issues the schema reports for one field holding the number `n`. */
  function NumberIssues(field: Field, n: JsNumber, max: Option<int>): (issues: seq<Issue>)
    ensures issues == [] <==> Accepts(n, max)
    ensures forall i :: 0 <= i < |issues| ==> issues[i].field == field
    ensures Issue(field, NotANumber) in issues <==> n.NaN?
    ensures Issue(field, NotInteger) in issues <==> !n.NaN? && !IsInteger(n)
    ensures Issue(field, TooSmall) in issues <==> Less(n, 1)
    ensures Issue(field, TooBig) in issues <==> max.Some? && Greater(n, max.value)
  {
    if n.NaN? then [Issue(field, NotANumber)]
    else
      (if IsInteger(n) then [] else [Issue(field, NotInteger)])
      + (if Less(n, 1) then [Issue(field, TooSmall)] else [])
      + (if max.Some? && Greater(n, max.value) then [Issue(field, TooBig)] else [])
  }

  /** The number the schema checks for a query parameter `raw`. */
  function Coerced(raw: Option<string>, default: int, policy: AbsentPolicy,
                   number: string -> JsNumber): JsNumber
  {
    if raw.None? && policy == DefaultWhenAbsent then Finite(default as real)
    else FromParam(raw, number)
  }

  function PageInput(sp: Url.SearchParams, policy: AbsentPolicy, number: string -> JsNumber): JsNumber
  {
    Coerced(Url.Get(sp, "page"), DefaultPage, policy, number)
  }

  function LimitInput(sp: Url.SearchParams, policy: AbsentPolicy, number: string -> JsNumber): JsNumber
  {
    Coerced(Url.Get(sp, "limit"), DefaultLimit, policy, number)
  }

  /** `PagingSchema.parse({page, limit})`: both fields are checked and all issues are
      reported, those of `page` first. */
  function ParsePaging(sp: Url.SearchParams, policy: AbsentPolicy, number: string -> JsNumber)
    : (r: Result<PageRequest, seq<Issue>>)
    ensures r.Ok? <==> Accepts(PageInput(sp, policy, number), None)
                       && Accepts(LimitInput(sp, policy, number), Some(MaxLimit))
    ensures r.Ok? ==> && r.value.page >= 1 && 1 <= r.value.limit <= MaxLimit
                      && r.value.page as real == PageInput(sp, policy, number).value
                      && r.value.limit as real == LimitInput(sp, policy, number).value
    ensures r.Err? ==> r.error != []
    ensures r.Err? ==> ((exists i :: 0 <= i < |r.error| && r.error[i].field == PageField)
                        <==> !Accepts(PageInput(sp, policy, number), None))
    ensures r.Err? ==> ((exists i :: 0 <= i < |r.error| && r.error[i].field == LimitField)
                        <==> !Accepts(LimitInput(sp, policy, number), Some(MaxLimit)))
    ensures r.Err? ==> forall i, j :: 0 <= i < j < |r.error| && r.error[i].field == LimitField
                                      ==> r.error[j].field == LimitField
  {
    var pageN, limitN := PageInput(sp, policy, number), LimitInput(sp, policy, number);
    var pageIssues := NumberIssues(PageField, pageN, None);
    var limitIssues := NumberIssues(LimitField, limitN, Some(MaxLimit));
    if pageIssues + limitIssues == [] then Ok(PageRequest(pageN.value.Floor, limitN.value.Floor))
    else
      IssuesByField(pageIssues, limitIssues);
      Err(pageIssues + limitIssues)
  }

  /** The issues of `page` followed by those of `limit`: each field appears when it has an
      issue, and no `page` issue follows a `limit` one. */
  lemma IssuesByField(pageIssues: seq<Issue>, limitIssues: seq<Issue>)
    requires forall i :: 0 <= i < |pageIssues| ==> pageIssues[i].field == PageField
    requires forall i :: 0 <= i < |limitIssues| ==> limitIssues[i].field == LimitField
    ensures var all := pageIssues + limitIssues;
            && ((exists i :: 0 <= i < |all| && all[i].field == PageField) <==> pageIssues != [])
            && ((exists i :: 0 <= i < |all| && all[i].field == LimitField) <==> limitIssues != [])
            && forall i, j :: 0 <= i < j < |all| && all[i].field == LimitField ==> all[j].field == LimitField
  {
    var all := pageIssues + limitIssues;
    assert forall i :: 0 <= i < |pageIssues| ==> all[i] == pageIssues[i];
    assert forall i :: |pageIssues| <= i < |all| ==> all[i] == limitIssues[i - |pageIssues|];
    assert pageIssues != [] ==> all[0].field == PageField;
    assert limitIssues != [] ==> all[|pageIssues|].field == LimitField;
  }

  /** A request without `page` and `limit` gets the defaults, or two `too_small` issues when
      the missing values are converted from `null`. */
  lemma AbsentPaging(sp: Url.SearchParams, number: string -> JsNumber)
    requires !Url.Has(sp, "page") && !Url.Has(sp, "limit")
    ensures ParsePaging(sp, DefaultWhenAbsent, number) == Ok(PageRequest(DefaultPage, DefaultLimit))
    ensures ParsePaging(sp, CoerceAbsent, number)
            == Err([Issue(PageField, TooSmall), Issue(LimitField, TooSmall)])
  {
    assert Url.Get(sp, "page").None? && Url.Get(sp, "limit").None?;
    assert PageInput(sp, DefaultWhenAbsent, number) == Finite(1.0);
    assert LimitInput(sp, DefaultWhenAbsent, number) == Finite(10.0);
    assert PageInput(sp, CoerceAbsent, number) == Finite(0.0);
    assert LimitInput(sp, CoerceAbsent, number) == Finite(0.0);
    ZeroIssues(PageField, None);
    ZeroIssues(LimitField, Some(MaxLimit));
    assert (1.0).Floor == 1 && (10.0).Floor == 10;
    assert [Issue(PageField, TooSmall)] + [Issue(LimitField, TooSmall)]
           == [Issue(PageField, TooSmall), Issue(LimitField, TooSmall)];
  }

  lemma ZeroIssues(field: Field, max: Option<int>)
    requires max.None? || max.value >= 0
    ensures NumberIssues(field, Finite(0.0), max) == [Issue(field, TooSmall)]
  {
    assert IsInteger(Finite(0.0)) by { assert (0.0).Floor == 0; }
  }

  // ---------------------------------------------------------------------------------------
  // Whitelist of views.
  // ---------------------------------------------------------------------------------------

  datatype ViewConfig = ViewConfig(searchFields: Option<seq<string>>)

  const MostBorrowedBooks := "most-borrowed-books"
  const OverdueLoans := "overdue-loans"

  const BookSearchFields := ["title", "author"]

  const AllowedViews: map<string, ViewConfig> := map[
    MostBorrowedBooks := ViewConfig(Some(BookSearchFields)),
    OverdueLoans := ViewConfig(None),
    "fines-summary" := ViewConfig(None),
    "member-activity" := ViewConfig(None),
    "inventory-health" := ViewConfig(None)
  ]

  /** The names every plain object inherits from `Object.prototype`, each of them truthy. */
  const ObjectPrototypeKeys: set<string> := {
    "constructor", "__defineGetter__", "__defineSetter__", "hasOwnProperty",
    "__lookupGetter__", "__lookupSetter__", "isPrototypeOf", "propertyIsEnumerable",
    "toString", "valueOf", "__proto__", "toLocaleString"
  }

  /** A JavaScript object as a property read sees it: its own properties, each with whether
      its value is truthy, and its prototype. */
  datatype JsObject = JsObject(own: map<string, bool>, proto: Option<JsObject>)

  /** `obj[key]`: an own property first, otherwise the same read on the prototype; None is
      `undefined`, which is falsy. */
  function Lookup(obj: JsObject, key: string): Option<bool>
  {
    if key in obj.own then Some(obj.own[key])
    else match obj.proto
         case None => None
         case Some(p) => Lookup(p, key)
  }

  /** `Object.prototype`: every property is a function or an object, so truthy, and it has
      no prototype of its own. */
  const ObjectPrototype: JsObject := JsObject(map k | k in ObjectPrototypeKeys :: true, None)

  /** The object literal `ALLOWED_VIEWS`: each value is an object literal, so truthy, and its
      prototype is `Object.prototype`. */
  const AllowedViewsObject: JsObject := JsObject(map k | k in AllowedViews :: true, Some(ObjectPrototype))

  /** The whitelist test as written: `!ALLOWED_VIEWS[reportName]` is false exactly when the
      property read finds a truthy value, own or inherited. The names it passes are the
      configured views and the names of `Object.prototype`. */
  predicate ListedAsWritten(reportName: string): (passes: bool)
    ensures passes <==> reportName in AllowedViews || reportName in ObjectPrototypeKeys
  {
    LookupAllowedViews(reportName);
    Lookup(AllowedViewsObject, reportName) == Some(true)
  }

  /** Reading `ALLOWED_VIEWS[name]` finds a configured view, else a name of
      `Object.prototype`, else `undefined`. */
  lemma LookupAllowedViews(name: string)
    ensures Lookup(AllowedViewsObject, name)
            == if name in AllowedViews || name in ObjectPrototypeKeys then Some(true) else None
  {
    assert name in AllowedViewsObject.own <==> name in AllowedViews;
    assert name in ObjectPrototype.own <==> name in ObjectPrototypeKeys;
    assert AllowedViewsObject.proto == Some(ObjectPrototype);
  }

  /** The whitelist test as intended: only the configured views, which is the test as
      written without the inherited names. */
  predicate Listed(reportName: string): (passes: bool)
    ensures passes <==> ListedAsWritten(reportName) && reportName !in ObjectPrototypeKeys
  {
    assert reportName in AllowedViews ==> reportName !in ObjectPrototypeKeys by {
      if reportName in AllowedViews {
        assert reportName[0] in "mofi" && reportName[1] in "oiven";
      }
    }

    reportName in AllowedViews
  }

  /** The test as written lets an inherited name through: `toString` is not a report, yet
      it passes, and every inherited name passes although none is a view. */
  lemma InheritedNamePassesWhitelist()
    ensures ListedAsWritten("toString") && !Listed("toString")
    ensures forall name :: name in ObjectPrototypeKeys ==> ListedAsWritten(name) && !Listed(name)
    ensures forall name :: Listed(name) ==> ListedAsWritten(name)
  {
    forall name | name in ObjectPrototypeKeys ensures !Listed(name) {
      assert name[0] != 'm' && name[0] != 'o' && name[0] != 'f' && (name[0] == 'i' ==> name[1] == 's');
    }
  }

  /** The corrected whitelist admits exactly the five report names. */
  /** With the test as written, `GET /api/reports/toString` goes on to build its query: a
      `SELECT` over `vw_toString`, which is none of the configured views, with no filter.
      `Fetch` then sends the `COUNT(*)` of that query to the database first. */
  lemma InheritedNameReachesStore(sp: Url.SearchParams)
    ensures ListedAsWritten("toString")
    ensures UnpagedQuery("toString", sp) == BaseQuery("toString")
    ensures FilterParams("toString", sp) == []
    ensures "SELECT * FROM vw_" + "toString" !in ViewSelects
  {
    assert "toString"[0] != MostBorrowedBooks[0] && "toString"[0] != OverdueLoans[0];
    assert Clauses("toString", sp) == [];
    var w := "SELECT * FROM vw_";
    forall v | v in AllowedViews ensures w + "toString" != w + v {
      assert (w + "toString")[|w|] == 't' != (w + v)[|w|];
    }
  }

  lemma ListedIsReportName(reportName: string)
    ensures Listed(reportName)
            <==> reportName in {MostBorrowedBooks, OverdueLoans, "fines-summary", "member-activity", "inventory-health"}
  {
  }

  // ---------------------------------------------------------------------------------------
  // The query the request describes.
  // ---------------------------------------------------------------------------------------

  /** `value || '0'`: the empty string is falsy. */
  function OrZero(value: string): string
  {
    if value == "" then "0" else value
  }

  /** `parseInt(value || '0', 10)`, kept only when it is a number greater than 0. */
  function MinDays(value: string): (d: Option<int>)
    ensures d.Some? ==> d.value >= 1
  {
    var parsed := ParseInt(OrZero(value));
    if parsed.Some? && parsed.value > 0 then parsed else None
  }

  /** Text that does not start with a number (after white space and a sign) adds no
      filter. */
  lemma MinDaysOfText(value: string)
    requires value != []
    requires var t := TrimStart(value);
             var u := if t != [] && (t[0] == '-' || t[0] == '+') then t[1..] else t;
             u == [] || !IsDigit(u[0])
    ensures MinDays(value) == None
  {
    ParseIntNaN(value);
  }

  /** A positive decimal count of days is taken as it is; zero, a negative count and the
      empty value add no filter. */
  lemma MinDaysOfDecimal(n: nat, tail: string)
    requires tail == [] || !IsDigit(tail[0])
    ensures MinDays(DecimalText(n) + tail) == if n > 0 then Some(n) else None
    ensures MinDays("-" + DecimalText(n) + tail) == None
    ensures MinDays("") == None
  {
    ParseIntOfDecimal(n, tail);
    ParseIntOfDecimal(0, []);
    assert DecimalText(0) == "0";
    assert "0" + [] == "0";
    assert DecimalText(n) + tail != [];
    assert ("-" + DecimalText(n) + tail) != [];
  }

  /** The search term, for the one report that searches, when `search` is present. */
  function SearchTerm(reportName: string, sp: Url.SearchParams): Option<string>
  {
    if reportName == MostBorrowedBooks && Url.Has(sp, "search") then Url.Get(sp, "search") else None
  }

  /** The minimum delay, for the one report that filters by it, when it is present and
      positive. */
  function MinDaysFilter(reportName: string, sp: Url.SearchParams): Option<int>
  {
    if reportName == OverdueLoans && Url.Has(sp, "min_days_atraso")
    then MinDays(Url.Get(sp, "min_days_atraso").value)
    else None
  }

  /** `(title ILIKE $n OR author ILIKE $n)`. */
  function SearchClause(fields: seq<string>, n: nat): seq<Fragment>
  {
    [Lit("(")] + IlikeAny(fields, n) + [Lit(")")]
  }

  /** `dias_atraso >= $n`. */
  function MinDaysClause(n: nat): seq<Fragment>
  {
    [Lit("dias_atraso >= "), Ph(n)]
  }

  /** The values bound to the filter placeholders, in the order they are pushed. */
  function FilterParams(reportName: string, sp: Url.SearchParams): (ps: seq<Param>)
    ensures ps == [] <==> SearchTerm(reportName, sp).None? && MinDaysFilter(reportName, sp).None?
    ensures SearchTerm(reportName, sp).Some? ==> ps == [Text(LikePattern(SearchTerm(reportName, sp).value))]
    ensures MinDaysFilter(reportName, sp).Some? ==> ps == [Int(MinDaysFilter(reportName, sp).value)]
  {
    assert MostBorrowedBooks[0] != OverdueLoans[0];
    var term, days := SearchTerm(reportName, sp), MinDaysFilter(reportName, sp);
    (if term.Some? then [Text(LikePattern(term.value))] else [])
    + (if days.Some? then [Int(days.value)] else [])
  }

  /** The WHERE clauses; each numbers its placeholder by the parameters pushed so far. */
  function Clauses(reportName: string, sp: Url.SearchParams): seq<seq<Fragment>>
  {
    var term, days := SearchTerm(reportName, sp), MinDaysFilter(reportName, sp);
    var searchClauses := if term.Some? then [SearchClause(BookSearchFields, 1)] else [];
    var n := if term.Some? then 1 else 0;
    searchClauses + (if days.Some? then [MinDaysClause(n + 1)] else [])
  }

  function BaseQuery(reportName: string): seq<Fragment>
  {
    [Lit("SELECT * FROM vw_" + reportName)]
  }

  /** The query before counting and paging. */
  function UnpagedQuery(reportName: string, sp: Url.SearchParams): (q: seq<Fragment>)
    ensures |q| >= 1 && q[..1] == BaseQuery(reportName)
    ensures |q| > 1 <==> Clauses(reportName, sp) != []
  {
    var clauses := Clauses(reportName, sp);
    BaseQuery(reportName) + (if clauses == [] then [] else [Lit(" WHERE ")] + Join(clauses, " AND "))
  }

  /** The `SELECT` over a whitelisted view. */
  const ViewSelects: set<string> := set v | v in AllowedViews :: "SELECT * FROM vw_" + v

  /** Every literal piece of text any statement of the endpoint may contain. */
  const Vocabulary: set<string> := ViewSelects + {
    " WHERE ", " AND ", "(", ")", " OR ", "title ILIKE ", "author ILIKE ", "dias_atraso >= ",
    CountHead, CountTail, LimitWord, OffsetWord
  }

  /** At most one filter applies: the search only to most-borrowed-books, the minimum delay
      only to overdue-loans. */
  lemma AtMostOneClause(reportName: string, sp: Url.SearchParams)
    ensures |Clauses(reportName, sp)| == |FilterParams(reportName, sp)| <= 1
    ensures SearchTerm(reportName, sp).Some? <==> reportName == MostBorrowedBooks && Url.Has(sp, "search")
    ensures MinDaysFilter(reportName, sp).Some? ==> reportName == OverdueLoans && Url.Has(sp, "min_days_atraso")
    ensures reportName !in {MostBorrowedBooks, OverdueLoans} ==> Clauses(reportName, sp) == []
  {
  }

  /** The search binds exactly one value, `%term%`, and every searched column compares
      against its one placeholder `$1`. */
  lemma SearchSharesOnePlaceholder(sp: Url.SearchParams)
    requires Url.Has(sp, "search")
    ensures FilterParams(MostBorrowedBooks, sp) == [Text(LikePattern(Url.Get(sp, "search").value))]
    ensures Clauses(MostBorrowedBooks, sp) == [SearchClause(BookSearchFields, 1)]
    ensures Placeholders(SearchClause(BookSearchFields, 1)) == {1}
  {
    SearchClausePlaceholders(BookSearchFields, 1);
  }

  /** The minimum-delay filter binds the parsed integer, never the raw text. */
  lemma MinDaysBindsInteger(sp: Url.SearchParams)
    requires MinDaysFilter(OverdueLoans, sp).Some?
    ensures FilterParams(OverdueLoans, sp) == [Int(MinDaysFilter(OverdueLoans, sp).value)]
    ensures MinDaysFilter(OverdueLoans, sp).value >= 1
    ensures Clauses(OverdueLoans, sp) == [MinDaysClause(1)]
  {
  }

  lemma SearchClausePlaceholders(fields: seq<string>, n: nat)
    ensures Placeholders(SearchClause(fields, n)) == if fields == [] then {} else {n}
  {
    IlikeAnyPlaceholders(fields, n);
    PlaceholdersConcat([Lit("(")], IlikeAny(fields, n));
    PlaceholdersConcat([Lit("(")] + IlikeAny(fields, n), [Lit(")")]);
  }

  /** `WHERE` appears exactly when some clause was added, followed by the clauses joined
      with `AND`. */
  lemma WhereIffClauses(reportName: string, sp: Url.SearchParams)
    ensures var q := UnpagedQuery(reportName, sp);
            Lit(" WHERE ") in q <==> Clauses(reportName, sp) != []
    ensures Clauses(reportName, sp) != [] ==>
            UnpagedQuery(reportName, sp)[1..] == [Lit(" WHERE ")] + Join(Clauses(reportName, sp), " AND ")
  {
    var q := UnpagedQuery(reportName, sp);
    if Clauses(reportName, sp) != [] {
      assert q[1] == Lit(" WHERE ");
    } else {
      assert q == [Lit("SELECT * FROM vw_" + reportName)];
      assert "SELECT * FROM vw_" + reportName != " WHERE " by {
        assert ("SELECT * FROM vw_" + reportName)[0] == 'S';
      }
    }
  }

  /** The placeholders of the unpaged query are exactly `$1` .. `$n` for its `n` values. */
  lemma UnpagedQueryBindable(reportName: string, sp: Url.SearchParams)
    ensures Placeholders(UnpagedQuery(reportName, sp)) == Numbered(|FilterParams(reportName, sp)|)
  {
    var clauses := Clauses(reportName, sp);
    var base := BaseQuery(reportName);
    assert Placeholders(base) == {};
    if clauses != [] {
      var rest := [Lit(" WHERE ")] + Join(clauses, " AND ");
      PlaceholdersConcat(base, rest);
      PlaceholdersConcat([Lit(" WHERE ")], Join(clauses, " AND "));
      ClausesPlaceholders(reportName, sp);
    }
  }

  lemma ClausesPlaceholders(reportName: string, sp: Url.SearchParams)
    requires Clauses(reportName, sp) != []
    ensures Placeholders(Join(Clauses(reportName, sp), " AND ")) == Numbered(|FilterParams(reportName, sp)|)
  {
    var clauses := Clauses(reportName, sp);
    assert |clauses| == 1;
    assert Join(clauses, " AND ") == clauses[0];
    if SearchTerm(reportName, sp).Some? {
      SearchClausePlaceholders(BookSearchFields, 1);
    } else {
      PlaceholdersConcat([Lit("dias_atraso >= ")], [Ph(1)]);
      assert [Lit("dias_atraso >= ")] + [Ph(1)] == clauses[0];
    }
  }

  lemma SearchClauseLits(fields: seq<string>, n: nat, words: set<string>)
    requires "(" in words && ")" in words && " OR " in words
    requires forall j :: 0 <= j < |fields| ==> fields[j] + " ILIKE " in words
    ensures LitsIn(SearchClause(fields, n), words)
  {
    IlikeAnyLits(fields, n, words);
    LitsInConcat([Lit("(")], IlikeAny(fields, n), words);
    LitsInConcat([Lit("(")] + IlikeAny(fields, n), [Lit(")")], words);
  }

  /** For a whitelisted report the unpaged query is made only of fixed text: no part of the
      query string, the search term or the delay value enters it. */
  lemma UnpagedQueryLits(reportName: string, sp: Url.SearchParams)
    requires Listed(reportName)
    ensures LitsIn(UnpagedQuery(reportName, sp), Vocabulary)
  {
    var clauses := Clauses(reportName, sp);
    var base := BaseQuery(reportName);
    BaseQueryLits(reportName);
    if clauses != [] {
      ClausesLits(reportName, sp);
      LitsInConcat([Lit(" WHERE ")], Join(clauses, " AND "), Vocabulary);
      LitsInConcat(base, [Lit(" WHERE ")] + Join(clauses, " AND "), Vocabulary);
    }
  }

  lemma ClausesLits(reportName: string, sp: Url.SearchParams)
    ensures LitsIn(Join(Clauses(reportName, sp), " AND "), Vocabulary)
  {
    var clauses := Clauses(reportName, sp);
    if clauses != [] {
      assert |clauses| == 1;
      assert Join(clauses, " AND ") == clauses[0];
      if SearchTerm(reportName, sp).Some? {
        SearchClauseInVocabulary();
      } else {
        assert "dias_atraso >= " in Vocabulary;
      }
    }
  }

  lemma SearchClauseInVocabulary()
    ensures LitsIn(SearchClause(BookSearchFields, 1), Vocabulary)
  {
    assert BookSearchFields[0] + " ILIKE " == "title ILIKE ";
    assert BookSearchFields[1] + " ILIKE " == "author ILIKE ";
    SearchClauseLits(BookSearchFields, 1, Vocabulary);
  }

  lemma BaseQueryLits(reportName: string)
    requires Listed(reportName)
    ensures LitsIn(BaseQuery(reportName), Vocabulary)
  {
    assert "SELECT * FROM vw_" + reportName in ViewSelects;
  }

  /** The query text does not depend on the search term: two requests that differ only in
      the value of `search` build the same SQL, and differ only in the bound pattern. */
  lemma SqlIndependentOfSearchTerm(reportName: string, sp: Url.SearchParams, a: string, b: string)
    ensures UnpagedQuery(reportName, Url.Set(sp, "search", a)) == UnpagedQuery(reportName, Url.Set(sp, "search", b))
    ensures reportName == MostBorrowedBooks ==>
            && FilterParams(reportName, Url.Set(sp, "search", a)) == [Text(LikePattern(a))]
            && FilterParams(reportName, Url.Set(sp, "search", b)) == [Text(LikePattern(b))]
  {
    var spa, spb := Url.Set(sp, "search", a), Url.Set(sp, "search", b);
    SetSearchKeepsMinDays(sp, a);
    SetSearchKeepsMinDays(sp, b);
    SameFiltersSameSql(reportName, spa, spb);
    if reportName == MostBorrowedBooks {
      SearchFilterParams(spa);
      SearchFilterParams(spb);
    }
  }

  lemma SetSearchKeepsMinDays(sp: Url.SearchParams, a: string)
    ensures Url.Has(Url.Set(sp, "search", a), "search")
    ensures Url.Get(Url.Set(sp, "search", a), "min_days_atraso") == Url.Get(sp, "min_days_atraso")
  {
    assert "min_days_atraso" != "search" by {
      assert "min_days_atraso"[0] != "search"[0];
    }
  }

  lemma SearchFilterParams(sp: Url.SearchParams)
    requires Url.Has(sp, "search")
    ensures FilterParams(MostBorrowedBooks, sp) == [Text(LikePattern(Url.Get(sp, "search").value))]
  {
    assert MinDaysFilter(MostBorrowedBooks, sp) == None;
  }

  /** Requests that agree on whether `search` is present and on `min_days_atraso` build
      the same SQL. */
  lemma SameFiltersSameSql(reportName: string, spa: Url.SearchParams, spb: Url.SearchParams)
    requires Url.Has(spa, "search") == Url.Has(spb, "search")
    requires Url.Get(spa, "min_days_atraso") == Url.Get(spb, "min_days_atraso")
    ensures UnpagedQuery(reportName, spa) == UnpagedQuery(reportName, spb)
  {
    assert Url.Has(spa, "min_days_atraso") <==> Url.Has(spb, "min_days_atraso");
    assert Clauses(reportName, spa) == Clauses(reportName, spb);
  }

  // ---------------------------------------------------------------------------------------
  // The endpoint.
  // ---------------------------------------------------------------------------------------

  datatype PaginationInfo = PaginationInfo(page: int, limit: int, totalRecords: nat, totalPages: nat)

  /** The JSON answer: the page and its pagination data (200), `Report not found` (404),
      `Invalid query parameters` with the issues (400), or `Internal Server Error` (500). */
  datatype Response<R> =
    | Success(data: seq<R>, pagination: PaginationInfo)
    | NotFound
    | BadRequest(details: seq<Issue>)
    | InternalError

  /** The ordered rows the unpaged query of a request selects, or None when the store fails. */
  function Selected<R>(store: Store<R>, reportName: string, sp: Url.SearchParams): Option<seq<R>>
  {
    UnpagedQueryBindable(reportName, sp);
    NumberedInRange(UnpagedQuery(reportName, sp), |FilterParams(reportName, sp)|);
    store.select(Bind(UnpagedQuery(reportName, sp), FilterParams(reportName, sp)))
  }

  /** The statements of a request, checked as PostgreSQL would bind them. */
  predicate WellFormed(issued: seq<Statement>)
  {
    forall i :: 0 <= i < |issued| ==> Bindable(issued[i]) && LitsIn(issued[i].sql, Vocabulary)
  }

  lemma WellFormedAppend(issued: seq<Statement>, st: Statement)
    requires WellFormed(issued) && Bindable(st) && LitsIn(st.sql, Vocabulary)
    ensures WellFormed(issued + [st])
  {
  }

  /** `GET`: the statements it issues, in order, and its answer. */
  method Get<R(==)>(reportName: string, searchParams: Url.SearchParams, policy: AbsentPolicy,
                    number: string -> JsNumber, store: Store<R>)
    returns (response: Response<R>, issued: seq<Statement>)
    ensures !Listed(reportName) ==> response == NotFound && issued == []
    ensures Listed(reportName) && ParsePaging(searchParams, policy, number).Err? ==>
              response == BadRequest(ParsePaging(searchParams, policy, number).error) && issued == []
    ensures WellFormed(issued)
    ensures Listed(reportName) && ParsePaging(searchParams, policy, number).Ok? ==>
              var req := ParsePaging(searchParams, policy, number).value;
              Answered(reportName, searchParams, req.page, req.limit, store, response, issued)
  {
    if !Listed(reportName) {
      return NotFound, [];
    }
    var parsed := ParsePaging(searchParams, policy, number);
    if parsed.Err? {
      return BadRequest(parsed.error), [];
    }
    response, issued := Fetch(reportName, searchParams, parsed.value.page, parsed.value.limit, store);
  }

  /** What the endpoint answers and issues for a whitelisted report with accepted paging:
      first the COUNT(*) of the unpaged query, then, if that succeeded, its page; the
      answer is the window `[offset, offset + limit)` of the selected rows, their number and
      the number of pages, or a 500 when the store fails or the page's offset is beyond the
      `bigint` range of OFFSET. */
  predicate Answered<R(==)>(reportName: string, sp: Url.SearchParams, page: int, limit: int,
                            store: Store<R>, response: Response<R>, issued: seq<Statement>)
    requires page >= 1 && limit >= 1
  {
    var sql, ps := UnpagedQuery(reportName, sp), FilterParams(reportName, sp);
    var rows := Selected(store, reportName, sp);
    && 1 <= |issued| <= 2
    && issued[0] == Statement(CountWrap(sql), ps)
    && (|issued| == 2 <==> rows.Some?)
    && (|issued| == 2 ==> issued[1] == Statement(Paged(sql, |ps|), ps + [Int(limit), Int(Offset(page, limit))]))
    && (rows.None? || !PagingValue(Offset(page, limit)) || !PagingValue(limit) ==> response == InternalError)
    && (rows.Some? && PagingValue(Offset(page, limit)) && PagingValue(limit) ==> response == Success(Slice(rows.value, Offset(page, limit), limit),
                                           PaginationInfo(page, limit, |rows.value|, CeilDiv(|rows.value|, limit))))
  }

  /** The part of `GET` after validation: build the query, count, then fetch the page. */
  method Fetch<R(==)>(reportName: string, searchParams: Url.SearchParams, page: int, limit: int,
                      store: Store<R>)
    returns (response: Response<R>, issued: seq<Statement>)
    requires Listed(reportName) && page >= 1 && 1 <= limit
    ensures WellFormed(issued)
    ensures Answered(reportName, searchParams, page, limit, store, response, issued)
  {
    var offset := Offset(page, limit);
    var query, queryParams := BuildQuery(reportName, searchParams);

    CountStatementAnswers(store, reportName, searchParams);
    var totalQuery := CountWrap(query);
    WellFormedAppend([], Statement(totalQuery, queryParams));
    issued := [Statement(totalQuery, queryParams)];
    var totalResult := Execute(store, Statement(totalQuery, queryParams));
    if totalResult.None? || !totalResult.value.Count? {
      return InternalError, issued;
    }
    var totalRecords := totalResult.value.count;
    var totalPages := CeilDiv(totalRecords, limit);

    PagedStatementAnswers(store, reportName, searchParams, limit, offset);
    query := query + PageSuffix(|queryParams|);
    queryParams := queryParams + [Int(limit), Int(offset)];
    WellFormedAppend(issued, Statement(query, queryParams));
    issued := issued + [Statement(query, queryParams)];
    var result := Execute(store, Statement(query, queryParams));
    if result.None? || !result.value.Rows? {
      return InternalError, issued;
    }
    response := Success(result.value.rows, PaginationInfo(page, limit, totalRecords, totalPages));
  }

  /** Page 10^19 with limit 10 passes the schema, which sets no maximum page, but its
      offset is beyond `bigint`: the endpoint answers 500 even when the store works. */
  lemma PageBeyondBigintFails<R>(reportName: string, sp: Url.SearchParams, store: Store<R>,
                                 response: Response<R>, issued: seq<Statement>)
    requires Answered(reportName, sp, 10_000_000_000_000_000_000, 10, store, response, issued)
    ensures Accepts(Finite(10_000_000_000_000_000_000 as real), None) && Accepts(Finite(10.0), Some(MaxLimit))
    ensures response == InternalError
    ensures |issued| == 2 <==> Selected(store, reportName, sp).Some?
  {
    assert Offset(10_000_000_000_000_000_000, 10) > MaxBigint;
  }

  /** Steps 3 of the endpoint: the base `SELECT`, the filter clauses with their values, and
      the `WHERE` that joins them. */
  method BuildQuery(reportName: string, searchParams: Url.SearchParams)
    returns (query: seq<Fragment>, queryParams: seq<Param>)
    ensures query == UnpagedQuery(reportName, searchParams)
    ensures queryParams == FilterParams(reportName, searchParams)
  {
    ghost var term := SearchTerm(reportName, searchParams);
    query := BaseQuery(reportName);
    queryParams := [];
    var whereClauses: seq<seq<Fragment>> := [];

    if reportName == MostBorrowedBooks && Url.Has(searchParams, "search") {
      var searchTerm := Url.Get(searchParams, "search").value;
      var searchFields := BookSearchFields;
      queryParams := queryParams + [Text(LikePattern(searchTerm))];
      whereClauses := whereClauses + [SearchClause(searchFields, |queryParams|)];
    }
    assert queryParams == if term.Some? then [Text(LikePattern(term.value))] else [];
    assert whereClauses == if term.Some? then [SearchClause(BookSearchFields, 1)] else [];
    if reportName == OverdueLoans && Url.Has(searchParams, "min_days_atraso") {
      var raw := Url.Get(searchParams, "min_days_atraso").value;
      var minDays := ParseInt(OrZero(raw));
      if minDays.Some? && minDays.value > 0 {
        queryParams := queryParams + [Int(minDays.value)];
        whereClauses := whereClauses + [MinDaysClause(|queryParams|)];
      }
    }
    FilterStep(reportName, searchParams, queryParams, whereClauses);
    if |whereClauses| > 0 {
      query := query + [Lit(" WHERE ")] + Join(whereClauses, " AND ");
    }
    UnpagedQueryShape(reportName, searchParams, whereClauses, query);
  }

  lemma FilterStep(reportName: string, sp: Url.SearchParams, ps: seq<Param>, clauses: seq<seq<Fragment>>)
    requires var term := SearchTerm(reportName, sp);
             var start, before := if term.Some? then [Text(LikePattern(term.value))] else [],
                                  if term.Some? then [SearchClause(BookSearchFields, 1)] else [];
             var days := MinDaysFilter(reportName, sp);
             && ps == start + (if days.Some? then [Int(days.value)] else [])
             && clauses == before + (if days.Some? then [MinDaysClause(|start| + 1)] else [])
    ensures ps == FilterParams(reportName, sp)
    ensures clauses == Clauses(reportName, sp)
  {
  }

  lemma UnpagedQueryShape(reportName: string, sp: Url.SearchParams, clauses: seq<seq<Fragment>>,
                          query: seq<Fragment>)
    requires clauses == Clauses(reportName, sp)
    requires query == BaseQuery(reportName) + (if |clauses| > 0 then [Lit(" WHERE ")] + Join(clauses, " AND ") else [])
    ensures query == UnpagedQuery(reportName, sp)
  {
  }

  /** The COUNT(*) statement of a whitelisted report binds, contains only fixed text, and
      counts the rows of the unpaged query. */
  lemma CountStatementAnswers<R>(store: Store<R>, reportName: string, sp: Url.SearchParams)
    requires Listed(reportName)
    ensures var sql, ps := UnpagedQuery(reportName, sp), FilterParams(reportName, sp);
            && Bindable(Statement(CountWrap(sql), ps))
            && LitsIn(CountWrap(sql), Vocabulary)
            && Execute(store, Statement(CountWrap(sql), ps))
               == match Selected(store, reportName, sp)
                  case None => None
                  case Some(rows) => Some(Count(|rows|))
  {
    var sql, ps := UnpagedQuery(reportName, sp), FilterParams(reportName, sp);
    UnpagedQueryBindable(reportName, sp);
    UnpagedQueryLits(reportName, sp);
    CountWrapBindable(sql, ps);
    CountWrapLits(sql);
    ExecuteCountWrap(store, sql, ps);
  }

  /** The paged statement of a whitelisted report binds, contains only fixed text, and
      returns the window of the rows of the unpaged query, or fails for paging values beyond
      `bigint`. */
  lemma PagedStatementAnswers<R>(store: Store<R>, reportName: string, sp: Url.SearchParams, limit: nat, offset: nat)
    requires Listed(reportName)
    ensures var sql, ps := UnpagedQuery(reportName, sp), FilterParams(reportName, sp);
            var st := Statement(Paged(sql, |ps|), ps + [Int(limit), Int(offset)]);
            && Bindable(st)
            && LitsIn(st.sql, Vocabulary)
            && Execute(store, st)
               == if !PagingValue(limit) || !PagingValue(offset) then None
                  else match Selected(store, reportName, sp)
                       case None => None
                       case Some(rows) => Some(Rows(Slice(rows, offset, limit)))
  {
    var sql, ps := UnpagedQuery(reportName, sp), FilterParams(reportName, sp);
    UnpagedQueryBindable(reportName, sp);
    UnpagedQueryLits(reportName, sp);
    PagedBindable(sql, ps, limit, offset);
    PagedLits(sql, |ps|);
    ExecutePaged(store, sql, ps, limit, offset);
  }

  lemma CountWrapLits(sql: seq<Fragment>)
    requires LitsIn(sql, Vocabulary)
    ensures LitsIn(CountWrap(sql), Vocabulary)
  {
    LitsInConcat([Lit(CountHead)], sql, Vocabulary);
    LitsInConcat([Lit(CountHead)] + sql, [Lit(CountTail)], Vocabulary);
  }

  lemma PagedLits(sql: seq<Fragment>, n: nat)
    requires LitsIn(sql, Vocabulary)
    ensures LitsIn(Paged(sql, n), Vocabulary)
  {
    LitsInConcat(sql, PageSuffix(n), Vocabulary);
  }
}

=== FILE: wrappers.dfy ===
/** The two wrappers the model uses: a value that may be absent, and an operation that may fail. */
module Wrappers {
  datatype Option<+T> = None | Some(value: T)

  datatype Result<+T, +E> = Ok(value: T) | Err(error: E)
}
